=== FILE: README.md ===
# Janseva-Soochak listing directory — a Dafny model

Janseva-Soochak is a small business directory. Owners submit listings.
Visitors search them, read them and write reviews. An administrator behind a
shared password marks listings as verified. All of its data lives in the
browser. This project models the logic under the pages as pure functions over
immutable values and proves what each one promises.

- **Listing store** (`listing.dfy`, module `Listing`). Covers the `Business` and `Review` records, the built-in seed and the load-or-seed decision. It also covers `addBusiness`, `updateBusinessVerification`, `addReview` and `getBusinessById`. The three updates are functions from the collection to the next collection, and the lookup is a query on it. Ratings are kept in integer tenths.
- **Search page** (`search_page.dfy`, `query_string.dfy`, `text.dfy`). Covers the three filters (query, city and category) and the query string written to the address and read back. It also covers ASCII lower-casing and substring search.
- **Suggestion box** (`autocomplete.dfy`). Covers the suggestion filter and the show/hide rules of the widget, event by event.
- **Admin page** (`admin_gate.dfy`). Covers the stored password with its default, login, logout, the three-step password change, the verification toggle and the dashboard counts. Local and session storage are maps from keys to strings.
- **Home page** (`home_page.dfy`). Covers the listings per category, the featured listings, the three newest reviews and the link to the search page.
- **Add-listing form** (`add_listing.dfy`). Covers field edits, the required-field check and the hand-over to `addBusiness`.
- **Business page** (`business_page.dfy`). Covers the lookup, the "not found" branch, the average shown, the star picker and the review form.
- **Shared helpers** (`basics.dfy`). Covers `Option`, subsequences, an order-keeping `Filter` and counting.

Timestamps are a pair: the ISO text and its milliseconds since the epoch. The clock is a parameter (`now`). Parsing and serialising the stored collection are parameters too (`parse`, `serialize`). The parse result is a datatype: an array, not an array, or malformed.

The stored rating is not the rounded mean of the reviews in every collection. The seed's listing 1 stores 4.8 with reviews 5 and 4, and listings 3–5 carry a rating but no reviews. So the model proves the equality only as a postcondition of adding a review (`Listing.WithReview`). It also proves that the seed breaks it (`Listing.SeedRatingIsNotMean`).

## Model

| member | source | states |
|---|---|---|
| Listing.MeanTenths | src/contexts/BusinessContext.tsx:172-176 | The stored rating in tenths is the integer nearest to ten times the mean rating, a tie going up. |
| Listing.NearestTenthUnique | src/contexts/BusinessContext.tsx:176 | Only one integer lies in that rounding window, so the window defines the rating exactly. |
| Listing.SumRatings | src/contexts/BusinessContext.tsx:172 | The `reduce` sum of the ratings. With every rating in 1..5, the sum of n ratings lies between n and 5n. |
| Listing.MeanTenthsInRange | src/contexts/BusinessContext.tsx:171-176 | With every rating in 1..5, the recomputed rating lies between 1.0 and 5.0. |
| Listing.MaxId | src/contexts/BusinessContext.tsx:147 | The largest id, taken together with 0: at least every id, and either 0 or the id of some record. |
| Listing.NextId | src/contexts/BusinessContext.tsx:147 | The new id is greater than every existing id. It is 1 when the collection is empty or has no positive id, and otherwise one more than the largest id. |
| Listing.AddBusiness | src/contexts/BusinessContext.tsx:144-153 | The new record goes in front and the old ones follow unchanged and in order. It has the next id and is unverified. Its review list is empty, it is stamped now, and the supplied fields are copied. |
| Listing.AddBusinessKeepsIdsUnique | src/contexts/BusinessContext.tsx:145-152 | Adding a listing keeps the ids unique. |
| Listing.SetVerified | src/contexts/BusinessContext.tsx:155-161 | Length and order are kept. Records with the id get the flag and nothing else changes. Other records are untouched. |
| Listing.SetVerifiedUnknownId | src/contexts/BusinessContext.tsx:155-161 | An id no record carries leaves the collection identical. |
| Listing.SetVerifiedIdempotent | src/contexts/BusinessContext.tsx:155-161 | Setting the same flag twice is the same as setting it once. |
| Listing.SetVerifiedKeepsIds | src/contexts/BusinessContext.tsx:155-161 | Ids, and so their uniqueness, survive the flag update. |
| Listing.WithReview | src/contexts/BusinessContext.tsx:166-177 | The reviews become the old ones, an absent list counting as empty, then the new review stamped now. The rating becomes the rounded mean of the whole new list. No other field changes. |
| Listing.AddReview | src/contexts/BusinessContext.tsx:163-182 | Records with the id get the review and every other record is unchanged, in the same order. |
| Listing.AddReviewUnknownId | src/contexts/BusinessContext.tsx:179 | Reviewing an id no record carries leaves the collection identical. |
| Listing.PriorRatingDiscarded | src/contexts/BusinessContext.tsx:171-176 | The rating before a review has no effect on the rating after it. |
| Listing.WithReviewRatingInRange | src/contexts/BusinessContext.tsx:171-176 | With all ratings in 1..5, the rating after a review is present and within 1.0..5.0. |
| Listing.AddReviewKeepsIds | src/contexts/BusinessContext.tsx:163-182 | Ids, and so their uniqueness, survive a review. |
| Listing.TwoReviewScenario | src/contexts/BusinessContext.tsx:172-176 | Reviews of 5 and then 3 on an unreviewed listing give ratings 5.0 and then 4.0. |
| Listing.FindById | src/contexts/BusinessContext.tsx:184-186 | The result is the first record carrying the id, and nothing exactly when no record carries it. |
| Listing.FindAfterAddReview | src/contexts/BusinessContext.tsx:163-186 | Looking up a reviewed id finds the reviewed version of the record found before. |
| Listing.FindAfterSetVerified | src/contexts/BusinessContext.tsx:155-161 | Looking up an id after setting its flag finds the record found before with the flag set. |
| Listing.Load | src/contexts/BusinessContext.tsx:110-134 | The stored collection is used exactly when all three hold: data is present, the version tag is "v2_indian", and the data parses to a non-empty array. Otherwise the seed is used and the tag is written. Either way the collection is non-empty and the tag is stored. |
| Listing.Persist | src/contexts/BusinessContext.tsx:136-142 | The serialised collection is stored under "businesses" and every other key is kept. |
| Listing.PersistThenLoad | src/contexts/BusinessContext.tsx:110-142 | Suppose the version tag is current, the collection is non-empty, and its serialised text is non-empty and parses back to it. Then loading what was persisted gives the same collection back. An empty collection is not covered: reloading it gives the seed. |
| Listing.LoadIsStable | src/contexts/BusinessContext.tsx:110-142 | Provided the codec round-trips the loaded collection, that is, its serialised text is non-empty and parses back to it, loading, persisting and loading again yields the collection of the first load. |
| Listing.NumberedFromOne | src/contexts/BusinessContext.tsx:35-108 | A collection numbered 1..n has unique ids, and its next id is n + 1. |
| Listing.Seed | src/contexts/BusinessContext.tsx:35-108 | The seed has five records numbered 1 to 5, in order. |
| Listing.SeedFacts | src/contexts/BusinessContext.tsx:35-108 | The seed's ids are unique and the first listing added to it gets id 6. |
| Listing.SeedRatingIsNotMean | src/contexts/BusinessContext.tsx:36-52 | Seed listing 1 stores 4.8, while its reviews round to 4.5. |
| Listing.SeedAddScenario | src/contexts/BusinessContext.tsx:144-153 | Adding to the seed puts an unverified listing with id 6 in front of the five seed records. |
| Text.Lower | src/pages/Search.tsx:39-41 | Lower-casing keeps the length, maps each letter by itself and leaves no capital letter. |
| Text.LowerIdempotent | src/pages/Search.tsx:39-41 | Lower-casing twice is lower-casing once. |
| Text.Contains | src/pages/Search.tsx:39-41 | As with `includes`, the empty needle is found in every text, and a needle longer than the text is never found. |
| Text.ContainsIgnoringCase | src/pages/Search.tsx:39-41 | The case-blind test also finds the empty needle everywhere, and never finds a needle longer than the text. |
| Text.ContainsIffOccurs | src/pages/Search.tsx:39-41 | `includes` holds exactly when the needle occurs at some position of the text. |
| Text.IgnoringCaseIsCaseBlind | src/pages/Search.tsx:39-41 | The case-blind substring test gives the same answer for lower-cased text and needle. |
| SearchPage.QueryMatches | src/pages/Search.tsx:37-42 | The empty query matches every record. A record matches a query only if the query is no longer than its name, its category or its present description. |
| SearchPage.CityMatches | src/pages/Search.tsx:46 | The empty city matches every record. A record matches a city only if the city is no longer than the record's city. |
| SearchPage.CategoryFilterOn | src/pages/Search.tsx:49 | The category filter is on exactly when the choice is neither empty nor "All". |
| SearchPage.Matches | src/pages/Search.tsx:36-50 | A record passes exactly when the query test, the city test and (unless the choice is empty or "All") the exact category test all accept it. The page's skipping of an empty query or city changes nothing, because those accept every record. |
| SearchPage.Stage | src/pages/Search.tsx:36-51 | One `if (...) results = results.filter(...)` step. The result keeps order. When the filter is on it holds exactly the records that pass the test, and when it is off it holds all of them. |
| SearchPage.Results | src/pages/Search.tsx:32-54 | The results are a subsequence of the collection. They hold exactly the records that pass every filter that is on. |
| SearchPage.ResultsIsOneFilter | src/pages/Search.tsx:34-51 | The three filter stages are one filter by the conjunction of the three tests. |
| SearchPage.NoFiltersListsAll | src/pages/Search.tsx:36-51 | With no query, no city and category "All" or empty, the results are the whole collection in order. |
| SearchPage.AllIsNoCategory | src/pages/Search.tsx:49 | Choosing "All" is the same as choosing no category. |
| SearchPage.AddingFilterNarrows | src/pages/Search.tsx:36-51 | Turning any filter on yields a subsequence of the results without it. |
| SearchPage.MatchesCaseBlind | src/pages/Search.tsx:39-46 | One record passes for lower-cased query and city exactly when it passes for the typed ones. |
| SearchPage.QueryAndCityCaseBlind | src/pages/Search.tsx:39-46 | Lower-casing the query and the city does not change the results. |
| SearchPage.CategoryIsCaseSensitive | src/pages/Search.tsx:39-50 | Suppose a category choice differs from a record's category only in letter case. Then the choice does not select the record, but the same text typed as the query finds it. |
| SearchPage.NoDescriptionQuery | src/pages/Search.tsx:41 | A record without a description matches the query only through its name or its category. |
| QueryString.Get | src/pages/Search.tsx:27-29 | The lookup gives the value of the first pair with that key, and nothing exactly when no pair has the key. |
| QueryString.GetAppend | src/pages/Search.tsx:57-60 | Appending a pair leaves every other key's lookup alone, and makes a new key readable. |
| QueryString.Serialize | src/pages/Home.tsx:54 | The query string is empty exactly when there are no pairs. |
| QueryString.SetIfNonEmpty | src/pages/Search.tsx:58-59 | An empty value adds nothing. A non-empty value is appended as the last pair, every other key reads as before, and a key not yet present reads as the value. |
| SearchPage.SearchParams | src/pages/Search.tsx:56-62 | "q" is written iff the query is non-empty, "city" iff the city is non-empty, and "category" iff it is neither empty nor "All". Each is written with its value. |
| SearchPage.FiltersFromUrl | src/pages/Search.tsx:27-29 | The query and city are the URL's values, or empty when absent. The category is the URL's value when it is non-empty, and otherwise "All", so it is never empty. |
| SearchPage.UrlRoundTrip | src/pages/Search.tsx:27-62 | Reading the filters back from the written parameters reproduces the same results. |
| Autocomplete.Matching | src/components/SearchAutocomplete.tsx:26-28 | The listed suggestions are those whose lower case contains the lower-cased value, in their original order. |
| Autocomplete.Refilter | src/components/SearchAutocomplete.tsx:24-34 | For a non-empty value the list is recomputed, and it is shown iff something matches. An empty value hides the list and keeps the last one computed. |
| Autocomplete.Mount | src/components/SearchAutocomplete.tsx:24-34 | On first render the effect runs once. The list is shown iff the value is non-empty and something matches, and an empty value lists nothing. |
| Autocomplete.TypeValue | src/components/SearchAutocomplete.tsx:24-34 | Typing sets the value. Typing the same value changes nothing, because the effect does not run again. |
| Autocomplete.Focus | src/components/SearchAutocomplete.tsx:61 | Focus shows the list only if it was shown already or both the value and the last list are non-empty. |
| Autocomplete.ClickHandler | src/components/SearchAutocomplete.tsx:47-50 | The value becomes the clicked suggestion and the list is hidden. |
| Autocomplete.PickAsWritten | src/components/SearchAutocomplete.tsx:24-50 | A click as the page runs it, that is, the handler and then the value effect. The value becomes the suggestion. The list ends shown iff the suggestion differs from the old value, is non-empty and has matches. |
| Autocomplete.PickAsWrittenReopens | src/components/SearchAutocomplete.tsx:24-34 | After a click on a new, non-empty suggestion and the value effect that follows, the list is shown again. |
| Autocomplete.Pick | src/components/SearchAutocomplete.tsx:47-50 | The corrected click sets the value, recomputes the list for it and leaves the list hidden. |
| Autocomplete.StepAsWritten | src/components/SearchAutocomplete.tsx:24-61 | One user event as the page runs it. Typing sets the value, focus keeps value and list, and a click sets the value to the suggestion. |
| Autocomplete.StepAsWrittenKeepsConsistent | src/components/SearchAutocomplete.tsx:24-61 | The widget as the page runs it starts consistent, and every typed, focus or click event keeps it so, the click that re-opens the list included. In a consistent widget, a non-empty value's list is the matching suggestions, and a shown list is non-empty. |
| Autocomplete.Step | src/components/SearchAutocomplete.tsx:24-61 | One user event with the corrected click. Typing sets the value, focus keeps value and list, and a click sets the value and leaves the list hidden. |
| Autocomplete.StepKeepsConsistent | src/components/SearchAutocomplete.tsx:24-61 | With the corrected click the widget also starts consistent and stays so after every event. |
| Autocomplete.TypingShowsExactly | src/components/SearchAutocomplete.tsx:30-33 | After a value change the list is shown iff the value is non-empty and some suggestion matches. |
| Autocomplete.FocusShowsExactly | src/components/SearchAutocomplete.tsx:61 | In a consistent widget, focus shows the list iff it was shown or the value is non-empty and has matches. |
| AdminGate.ReadPassword | src/pages/Admin.tsx:14-24 | A missing or empty stored password is replaced by "admin@123", which is stored and returned. Any other stored value is returned unchanged. |
| AdminGate.ReadPasswordSettles | src/pages/Admin.tsx:17-24 | Reading the password a second time changes nothing more. |
| AdminGate.Open | src/pages/Admin.tsx:39-44 | The page opens logged in exactly when the session marker is "true". |
| AdminGate.Login | src/pages/Admin.tsx:46-63 | An exact match with the stored password logs in and sets the session marker. A mismatch changes nothing but the write of the default. Either way every other session key, the form fields and the dialog flag are kept, and no session key but the marker is added. |
| AdminGate.WrongPasswordRejected | src/pages/Admin.tsx:46-63 | A wrong password never logs in and never changes the stored password. |
| AdminGate.Logout | src/pages/Admin.tsx:65-69 | Logout clears the flag and removes only the session marker. No session key is added, local storage is kept, and the form fields and the dialog flag are unchanged. |
| AdminGate.LogoutThenOpen | src/pages/Admin.tsx:39-44 | Reopening the page after logout starts logged out. |
| AdminGate.ChangePassword | src/pages/Admin.tsx:81-128 | The checks run in a fixed order: wrong current password, new one shorter than 6, confirmation differs. The first failure is reported. On failure the password and the form stay. On success the new password is stored and the form is cleared and closed. Only the password key of local storage is written, every other stored key keeps its value, and the login field is kept. |
| AdminGate.ChangeThenLogin | src/pages/Admin.tsx:46-63 | After a change the new password logs in and a different old one does not. |
| AdminGate.Toggle | src/pages/Admin.tsx:71-72 | The record with the id gets the negation of the status shown, and the others are untouched. |
| AdminGate.ToggleFlipsAndRestores | src/pages/Admin.tsx:71-72 | A toggle flips the flag, and toggling back from the new status restores the collection. |
| AdminGate.VerifiedCount | src/pages/Admin.tsx:130 | The verified count is at most the number of listings, and zero exactly when no listing is verified. |
| AdminGate.PendingCount | src/pages/Admin.tsx:131 | The pending count is at most the number of listings, and zero exactly when every listing is verified. |
| AdminGate.CountsCoverAll | src/pages/Admin.tsx:130-131 | Verified plus pending is the number of listings. |
| HomePage.CategoriesOf | src/pages/Home.tsx:38 | The categories of the listings, in collection order. |
| HomePage.CountIsMultiplicity | src/pages/Home.tsx:38 | Counting a category's listings is counting that name among the categories. |
| HomePage.CountsFor | src/pages/Home.tsx:35-40 | For each name, in order, the count is the number of listings whose category is exactly that name. |
| HomePage.CategoryCounts | src/pages/Home.tsx:21-40 | The five shown categories, in display order, each with the number of listings of exactly that category. |
| HomePage.TotalIsCountInNames | src/pages/Home.tsx:35-40 | For distinct names, the counts add up to the listings whose category is one of them. |
| HomePage.CountsPartition | src/pages/Home.tsx:21-40 | The five counts plus the listings of any other category add up to the number of listings. |
| HomePage.Featured | src/pages/Home.tsx:42 | The result is the first min(4, #verified) verified listings, in collection order. When fewer than four are shown, no verified listing is missing. |
| HomePage.Tag | src/pages/Home.tsx:44 | Tagging keeps exactly one listing's reviews, each under that listing's name. |
| HomePage.AllReviews | src/pages/Home.tsx:43-44 | Every review of every listing appears, tagged with that listing's name, and no listings give no reviews. |
| HomePage.AllReviewsExact | src/pages/Home.tsx:43-44 | The collected reviews are exactly the reviews of the listings, an absent list counting as empty, each under its own listing's name. |
| HomePage.Insert | src/pages/Home.tsx:45 | Insertion into a newest-first list keeps it newest first and adds exactly that review. |
| HomePage.SortNewestFirst | src/pages/Home.tsx:45 | The sort is newest first and a permutation of its input. |
| HomePage.PrefixIsNewest | src/pages/Home.tsx:45-46 | A prefix of a newest-first list is newest first, and nothing it leaves out is newer than its last entry. |
| HomePage.Newest | src/pages/Home.tsx:45-46 | The n newest reviews are newest first and taken from the input. None left out is newer than the last one kept. |
| HomePage.RecentReviews | src/pages/Home.tsx:43-46 | At most three reviews, newest first, drawn from all listings. None left out is newer than the last one shown. |
| HomePage.RecentReviewsAreGenuine | src/pages/Home.tsx:43-46 | Every review shown belongs to some listing and carries that listing's name. |
| HomePage.HomeParams | src/pages/Home.tsx:51-53 | "q" is present iff the query is non-empty and "city" iff the city is non-empty. There is never a category. |
| HomePage.SearchUrl | src/pages/Home.tsx:48-55 | The link is "/search" with no "?" when both are empty, and otherwise "/search?" followed by a non-empty query string. |
| HomePage.SearchLinkOpensSameFilters | src/pages/Home.tsx:51-54 | The search page opened from the link starts with the typed query and city and with "All" categories. |
| AddListingForm.SetField | src/pages/AddListing.tsx:41-43 | The named field takes the value and every other field keeps its own. |
| AddListingForm.ListingOf | src/pages/AddListing.tsx:61-69 | The record handed to `addBusiness` carries every form field as typed. The address and the description are present even when empty, and there is no rating. |
| AddListingForm.Submit | src/pages/AddListing.tsx:45-77 | The form is accepted iff name, category, city and phone are all non-empty. A refused form leaves the collection alone. An accepted one adds a pending listing with the typed fields and no rating in front. The busy flag ends false either way. |
| AddListingForm.OptionalFieldsNeverBlock | src/pages/AddListing.tsx:50 | Owner name, address and description never decide acceptance. |
| AddListingForm.EmptyRequiredRefused | src/pages/AddListing.tsx:50-58 | Emptying any required field makes the form refused with the collection unchanged. |
| AddListingForm.AcceptedIsPendingAndFound | src/pages/AddListing.tsx:61-69 | An accepted listing keeps ids unique and is found under its new id. It adds one to the pending count and none to the verified count. |
| BusinessPage.PickRating | src/pages/Business.tsx:235-239 | A star click sets the form's rating to that star, from 1 to 5, and keeps the other fields. |
| BusinessPage.ToFixedTenths | src/pages/Business.tsx:79 | The shown mean in tenths is the integer nearest to ten times the mean, a tie going away from zero. |
| BusinessPage.DisplayedAverage | src/pages/Business.tsx:78-80 | "N/A" exactly when the listing has no reviews. Otherwise it is the reviews' mean rounded to one decimal. |
| BusinessPage.DisplayedIsStoredRounding | src/pages/Business.tsx:78-80 | For ratings that do not sum below zero, the shown average uses the same rounding as the stored rating. |
| BusinessPage.SeedShowsMeanNotStoredRating | src/pages/Business.tsx:78-80 | Seed listing 1 shows 4.5 while storing 4.8. |
| BusinessPage.SubmitReview | src/pages/Business.tsx:60-106 | An unknown id shows "not found" and submits nothing. A missing name or comment is refused with nothing changed. Otherwise the review is added for that id and the form is reset to empty name, 5 stars and empty comment. |
| BusinessPage.SubmittedReviewShown | src/pages/Business.tsx:78-106 | After a submission the listing has the new review last, and the average shown equals the rating stored with it. |
| BusinessPage.FormRatingStaysValid | src/pages/Business.tsx:235-239 | Star clicks and submissions keep the form's rating one of the offered stars. |

## Left out

- Float arithmetic. `Math.round(mean * 10) / 10` and `toFixed(1)` are modelled exactly in integer tenths. `toFixed` rounds the binary value of the quotient, and that value can fall just below an exact tie. For example, 23 / 20 is held as 1.1499999999999999, which shows "1.1", and 91 / 20 shows "4.5". `Math.round` on ten times the mean still gives the exact rounding in such cases (1.2 and 4.6).
- BusinessPage.ToFixedTenths: models `toFixed` as rounding to the nearest tenth with ties away from zero. It ignores the binary value of the quotient, so for 20 ratings summing to 23 it gives 12 where the page shows "1.1".
- BusinessPage.DisplayedIsStoredRounding: the shown and stored roundings agree on the exact mean only. For 20 ratings summing to 23 the page stores 1.2 and shows "1.1".
- BusinessPage.SubmittedReviewShown: "the average shown equals the stored rating" holds for the exact mean only. A submission that brings a listing to 20 ratings summing to 23 stores 1.2, and the page shows "1.1".
- Browser constraint validation. The `required` attribute on the login, password-change, review and add-listing inputs stops an empty submission before its handler runs. The model runs the handlers on empty input anyway. So `AdminGate.Login` on "" still writes the default password, and `AdminGate.ChangePassword` with an empty current password reports a wrong current password.
- Unicode `toLowerCase`. Only ASCII capital letters are lower-cased.
- `URLSearchParams` percent-encoding and decoding. Values are written and read as they are.
- `JSON.parse` and `JSON.stringify`. They are the parameters `parse` and `serialize`. A thrown parse error is the `Malformed` result.
- Listing.Persist: storage exceptions are not modelled. In the program a `setItem` that throws, for example when the quota is exceeded, is caught and logged with `console.error`. The old text then stays under "businesses", and the next load returns the older collection. The model always stores.
- Listing.Load: a `getItem` that throws is not modelled. The program's catch branch writes the version tag again, and if that write throws too the error escapes the initializer. The model's load always succeeds. A `JSON.parse` error caught there is the `Malformed` result, which is modelled.
- `new Date()`, `toISOString` and date parsing. A timestamp is its ISO text paired with its milliseconds, and the clock is the parameter `now`.
- HomePage.SortNewestFirst: the contract does not state stability. `Array.prototype.sort` is stable, and the model's insertion sort also keeps reviews with equal timestamps in input order, but that order is not proved. So `HomePage.Newest` and `HomePage.RecentReviews` do not promise which of several reviews with the same timestamp is shown.
- The `Number(id)` conversion of the page address. The page id is an integer, and a non-numeric address, which finds nothing, is the "not found" case.
- The password length check counts UTF-16 code units in the source. Here it counts characters.
- The stale-closure detail of `addBusiness`: the id is read from the rendered collection while the new record is prepended to the latest one. One sequential state is modelled.
- React rendering, hooks, toasts, routing and `window.location` navigation.
- The click-outside listener of the suggestion box. It only hides the list.
- `src/main.tsx`. It only bootstraps the app.
- The unused `mockBusiness` constant on the business page.
- The fixed city and category lists fed to the selects and the suggestion boxes. The model takes any suggestion list.
- The review count and star icons on the business page. They are direct reads of the review list.

## Findings

| source | as written | input that shows it | evidently intended | confidence | as-written member | corrected member |
|---|---|---|---|---|---|---|
| src/components/SearchAutocomplete.tsx:24-50 | The click handler hides the list, but `onChange` changes `value`, and the `[value, suggestions]` effect then runs again and shows the list. | Value "Mu", suggestions ["Mumbai"]: clicking "Mumbai" leaves value "Mumbai" and the list shown. "Mumbai" contains itself. | A click closes the list. | medium, not executed | Autocomplete.PickAsWrittenReopens | Autocomplete.Pick |

=== FILE: add_listing.dfy ===
/** The add-listing form: seven text fields, a check that the required ones
    are filled, and the hand-over of an accepted form to the collection. */
module AddListingForm {
  import opened Basics
  import opened Listing

  datatype ListingForm = ListingForm(
    ownerName: string,
    businessName: string,
    category: string,
    city: string,
    address: string,
    phone: string,
    description: string)

  datatype Field = OwnerName | BusinessName | Category | City | Address | Phone | Description

  /** The form as the page opens: every field empty. */
  const EmptyForm: ListingForm := ListingForm("", "", "", "", "", "", "")

  function FieldOf(f: ListingForm, k: Field): string
  {
    match k
    case OwnerName => f.ownerName
    case BusinessName => f.businessName
    case Category => f.category
    case City => f.city
    case Address => f.address
    case Phone => f.phone
    case Description => f.description
  }

  /** `handleChange(field, value)`: that field takes the value, the others keep theirs. */
  function SetField(f: ListingForm, k: Field, v: string): (r: ListingForm)
    ensures FieldOf(r, k) == v
    ensures forall other: Field :: other != k ==> FieldOf(r, other) == FieldOf(f, other)
  {
    match k
    case OwnerName => f.(ownerName := v)
    case BusinessName => f.(businessName := v)
    case Category => f.(category := v)
    case City => f.(city := v)
    case Address => f.(address := v)
    case Phone => f.(phone := v)
    case Description => f.(description := v)
  }

  /** The fields a submission cannot do without. */
  predicate Required(k: Field)
  {
    k == BusinessName || k == Category || k == City || k == Phone
  }

  /** What the form hands to `addBusiness`: every field as typed, the address
      and the description present even when empty, and no rating. */
  function ListingOf(f: ListingForm): (r: NewListing)
    ensures && r.name == FieldOf(f, BusinessName) && r.ownerName == FieldOf(f, OwnerName)
            && r.category == FieldOf(f, Category) && r.city == FieldOf(f, City)
            && r.phone == FieldOf(f, Phone)
    ensures r.address == Some(FieldOf(f, Address)) && r.description == Some(FieldOf(f, Description))
    ensures r.ratingTenths.None?
  {
    NewListing(f.businessName, f.ownerName, f.category, f.city, Some(f.address), f.phone,
               Some(f.description), None)
  }

  datatype Submission = Submission(businesses: seq<Business>, accepted: bool, submitting: bool)

  /** `handleSubmit`: refused unless every required field is non-empty, in
      which case the collection is untouched; otherwise the listing is added
      in front of the collection as a pending record. The busy flag is
      cleared on both paths. */
  function Submit(f: ListingForm, bs: seq<Business>, now: Stamp): (r: Submission)
    ensures r.accepted <==> forall k: Field :: Required(k) ==> FieldOf(f, k) != ""
    ensures !r.accepted ==> r.businesses == bs
    ensures r.accepted ==> |r.businesses| == |bs| + 1 && r.businesses[1..] == bs
    ensures r.accepted ==>
              var b := r.businesses[0];
              && b.id == NextId(bs) && !b.verified && b.reviews == Some([]) && b.createdAt == now
              && b.name == f.businessName && b.ownerName == f.ownerName
              && b.category == f.category && b.city == f.city && b.phone == f.phone
              && b.address == Some(f.address) && b.description == Some(f.description)
              && b.ratingTenths.None?
    ensures !r.submitting
  {
    if f.businessName == "" || f.category == "" || f.city == "" || f.phone == "" then
      assert FieldOf(f, BusinessName) == "" || FieldOf(f, Category) == ""
             || FieldOf(f, City) == "" || FieldOf(f, Phone) == "";
      Submission(bs, false, false)
    else
      Submission(AddBusiness(bs, ListingOf(f), now), true, false)
  }

  /** The owner's name, the address and the description never decide whether
      a form is accepted. */
  lemma OptionalFieldsNeverBlock(f: ListingForm, k: Field, v: string, bs: seq<Business>, now: Stamp)
    requires !Required(k)
    ensures Submit(SetField(f, k, v), bs, now).accepted == Submit(f, bs, now).accepted
  {
  }

  /** Emptying any required field makes the form refused. */
  lemma EmptyRequiredRefused(f: ListingForm, k: Field, bs: seq<Business>, now: Stamp)
    requires Required(k)
    ensures !Submit(SetField(f, k, ""), bs, now).accepted
    ensures Submit(SetField(f, k, ""), bs, now).businesses == bs
  {
  }

  /** An accepted listing keeps the ids unique, can be looked up by its new id,
      and adds one to the listings awaiting verification. */
  lemma AcceptedIsPendingAndFound(f: ListingForm, bs: seq<Business>, now: Stamp)
    requires UniqueIds(bs)
    requires Submit(f, bs, now).accepted
    ensures var r := Submit(f, bs, now).businesses;
            && UniqueIds(r)
            && FindById(r, NextId(bs)) == Some(r[0])
            && CountWhere(r, PendingTest()) == CountWhere(bs, PendingTest()) + 1
            && CountWhere(r, VerifiedTest()) == CountWhere(bs, VerifiedTest())
  {
    var r := Submit(f, bs, now).businesses;
    AddBusinessKeepsIdsUnique(bs, ListingOf(f), now);
    assert r == [r[0]] + bs;
  }
}

=== FILE: admin_gate.dfy ===
/** The admin page: a single shared password kept in local storage, a
    session marker for the logged-in state, password change, the
    verification toggle and the dashboard counts. */
module AdminGate {
  import opened Basics
  import opened Listing

  const DefaultPassword: string := "admin@123"
  const PasswordKey: string := "adminPassword"
  const AuthKey: string := "adminAuth"
  const AuthMarker: string := "true"
  const MinPasswordLength: nat := 6

  datatype PasswordRead = PasswordRead(password: string, local: Storage)

  /** `getAdminPassword`: a missing or empty stored password is replaced by the
      default, which is stored and returned; any other stored value is returned
      as it is. Either way the returned password is the one now stored. */
  function ReadPassword(local: Storage): (r: PasswordRead)
    ensures PasswordKey in r.local && r.local[PasswordKey] == r.password
    ensures r.password != ""
    ensures PasswordKey !in local || local[PasswordKey] == "" ==>
              r.password == DefaultPassword && r.local == local[PasswordKey := DefaultPassword]
    ensures PasswordKey in local && local[PasswordKey] != "" ==> r == PasswordRead(local[PasswordKey], local)
  {
    if PasswordKey !in local || local[PasswordKey] == "" then
      PasswordRead(DefaultPassword, local[PasswordKey := DefaultPassword])
    else PasswordRead(local[PasswordKey], local)
  }

  /** Reading the password a second time changes nothing more. */
  lemma ReadPasswordSettles(local: Storage)
    ensures var first := ReadPassword(local);
            ReadPassword(first.local) == first
  {
  }

  /** The admin page's state: both storages, the logged-in flag, and the
      login and change-password form fields. */
  datatype Admin = Admin(
    local: Storage,
    session: Storage,
    authenticated: bool,
    passwordInput: string,
    currentInput: string,
    newInput: string,
    confirmInput: string,
    dialogOpen: bool)

  /** The page as it opens: logged in exactly when the session carries the marker. */
  function Open(local: Storage, session: Storage): (a: Admin)
    ensures a.authenticated <==> AuthKey in session && session[AuthKey] == AuthMarker
    ensures a.local == local && a.session == session
  {
    Admin(local, session, AuthKey in session && session[AuthKey] == AuthMarker, "", "", "", "", false)
  }

  /** `handleLogin`: the typed password is compared, as a plain string, with the
      stored one. A match logs in and sets the session marker; a mismatch
      changes nothing but the storage write of the default password. Other
      session keys, the form fields and the dialog are never touched. */
  function Login(a: Admin): (r: Admin)
    ensures r.local == ReadPassword(a.local).local
    ensures a.passwordInput == ReadPassword(a.local).password ==>
              r.authenticated && AuthKey in r.session && r.session[AuthKey] == AuthMarker
    ensures a.passwordInput != ReadPassword(a.local).password ==>
              r == a.(local := ReadPassword(a.local).local)
    ensures forall k :: k in a.session && k != AuthKey ==> k in r.session && r.session[k] == a.session[k]
    ensures forall k :: k in r.session ==> k in a.session || k == AuthKey
    ensures && r.passwordInput == a.passwordInput && r.currentInput == a.currentInput
            && r.newInput == a.newInput && r.confirmInput == a.confirmInput && r.dialogOpen == a.dialogOpen
  {
    var read := ReadPassword(a.local);
    if a.passwordInput == read.password then
      a.(local := read.local, authenticated := true, session := a.session[AuthKey := AuthMarker])
    else a.(local := read.local)
  }

  /** `handleLogout`: logged out, and the session marker removed. */
  function Logout(a: Admin): (r: Admin)
    ensures !r.authenticated && AuthKey !in r.session
    ensures forall k :: k in a.session && k != AuthKey ==> k in r.session && r.session[k] == a.session[k]
    ensures forall k :: k in r.session ==> k in a.session && k != AuthKey
    ensures r.local == a.local
    ensures && r.passwordInput == a.passwordInput && r.currentInput == a.currentInput
            && r.newInput == a.newInput && r.confirmInput == a.confirmInput && r.dialogOpen == a.dialogOpen
  {
    a.(authenticated := false, session := a.session - {AuthKey})
  }

  /** Logging out and reopening the page starts logged out. */
  lemma LogoutThenOpen(a: Admin)
    ensures !Open(Logout(a).local, Logout(a).session).authenticated
  {
  }

  datatype ChangeError = WrongCurrent | TooShort | Mismatch

  datatype ChangeResult = ChangeResult(admin: Admin, error: Option<ChangeError>)

  /** `handleChangePassword`: three checks, in this order, and the first that
      fails is reported: the current password must match, the new one must
      have at least six characters, and the confirmation must repeat it. On
      failure the stored password and the form stay; on success the new
      password is stored, the form is cleared and the dialog closed, and no
      other stored key changes. */
  function ChangePassword(a: Admin): (r: ChangeResult)
    ensures var stored := ReadPassword(a.local).password;
            && (r.error == Some(WrongCurrent) <==> a.currentInput != stored)
            && (r.error == Some(TooShort) <==> a.currentInput == stored && |a.newInput| < MinPasswordLength)
            && (r.error == Some(Mismatch) <==>
                  a.currentInput == stored && |a.newInput| >= MinPasswordLength && a.newInput != a.confirmInput)
    ensures r.error.Some? ==> r.admin == a.(local := ReadPassword(a.local).local)
    ensures r.error.None? ==> ReadPassword(r.admin.local).password == a.newInput
    ensures r.error.None? ==>
              r.admin.currentInput == "" && r.admin.newInput == "" && r.admin.confirmInput == "" && !r.admin.dialogOpen
    ensures r.error.None? ==>
              forall k :: k in a.local && k != PasswordKey ==> k in r.admin.local && r.admin.local[k] == a.local[k]
    ensures forall k :: k in r.admin.local ==> k in a.local || k == PasswordKey
    ensures r.admin.authenticated == a.authenticated && r.admin.session == a.session
    ensures r.admin.passwordInput == a.passwordInput
  {
    var read := ReadPassword(a.local);
    var a' := a.(local := read.local);
    if a.currentInput != read.password then ChangeResult(a', Some(WrongCurrent))
    else if |a.newInput| < MinPasswordLength then ChangeResult(a', Some(TooShort))
    else if a.newInput != a.confirmInput then ChangeResult(a', Some(Mismatch))
    else
      ChangeResult(a'.(local := read.local[PasswordKey := a.newInput],
                       currentInput := "", newInput := "", confirmInput := "", dialogOpen := false),
                   None)
  }

  /** After a successful change the new password logs in and a different old
      one no longer does. */
  lemma ChangeThenLogin(a: Admin, later: Admin)
    requires ChangePassword(a).error.None?
    requires later.local == ChangePassword(a).admin.local
    ensures Login(later.(passwordInput := a.newInput)).authenticated
    ensures a.currentInput != a.newInput ==>
              Login(later.(passwordInput := a.currentInput)).authenticated == later.authenticated
  {
  }

  /** A wrong password never logs in and never alters the stored password. */
  lemma WrongPasswordRejected(a: Admin)
    requires !a.authenticated
    requires a.passwordInput != ReadPassword(a.local).password
    ensures !Login(a).authenticated
    ensures ReadPassword(Login(a).local).password == ReadPassword(a.local).password
  {
  }

  // ---------------------------------------------------------------------------
  // Verification toggle and counts

  /** `handleVerificationToggle`: the record gets the opposite of the status shown. */
  function Toggle(bs: seq<Business>, id: int, currentStatus: bool): (r: seq<Business>)
    ensures |r| == |bs|
    ensures forall i :: 0 <= i < |bs| && bs[i].id == id ==> r[i] == bs[i].(verified := !currentStatus)
    ensures forall i :: 0 <= i < |bs| && bs[i].id != id ==> r[i] == bs[i]
  {
    SetVerified(bs, id, !currentStatus)
  }

  /** Toggling the record with a given id, from the status it shows, flips its
      flag; toggling back from the new status restores the collection. */
  lemma ToggleFlipsAndRestores(bs: seq<Business>, i: int)
    requires UniqueIds(bs) && 0 <= i < |bs|
    ensures var b := bs[i];
            var once := Toggle(bs, b.id, b.verified);
            && once[i].verified == !b.verified
            && Toggle(once, b.id, once[i].verified) == bs
  {
    var b := bs[i];
    var once := Toggle(bs, b.id, b.verified);
    var twice := Toggle(once, b.id, once[i].verified);
    forall j | 0 <= j < |bs|
      ensures twice[j] == bs[j]
    {
      if j != i {
        assert bs[j].id != b.id;
      }
    }
  }

  /** The dashboard's "verified" figure: zero exactly when no listing is verified. */
  function VerifiedCount(bs: seq<Business>): (n: nat)
    ensures n <= |bs|
    ensures n == 0 <==> forall i :: 0 <= i < |bs| ==> !bs[i].verified
  {
    var r := Filter(bs, VerifiedTest());
    assert r != [] ==> r[0] in bs && r[0].verified;
    CountWhere(bs, VerifiedTest())
  }

  /** The dashboard's "pending" figure: zero exactly when every listing is verified. */
  function PendingCount(bs: seq<Business>): (n: nat)
    ensures n <= |bs|
    ensures n == 0 <==> forall i :: 0 <= i < |bs| ==> bs[i].verified
  {
    var r := Filter(bs, PendingTest());
    assert r != [] ==> r[0] in bs && !r[0].verified;
    CountWhere(bs, PendingTest())
  }

  /** Every listing is counted once: verified plus pending is the total. */
  lemma CountsCoverAll(bs: seq<Business>)
    ensures VerifiedCount(bs) + PendingCount(bs) == |bs|
  {
    CountSplit(bs, VerifiedTest(), PendingTest());
  }
}

=== FILE: autocomplete.dfy ===
/** The search box with a suggestion list: which suggestions are listed for
    the current value, and when the list is shown. The value itself belongs
    to the page that hosts the box; here it is part of the widget state. */
module Autocomplete {
  import opened Basics
  import opened Text

  datatype Widget = Widget(value: string, filtered: seq<string>, shown: bool)

  function SuggestionTest(value: string): string -> bool { s => ContainsIgnoringCase(s, value) }

  /** The suggestions whose lower case contains the lower-cased value, in order. */
  function Matching(suggestions: seq<string>, value: string): (r: seq<string>)
    ensures IsSubseq(r, suggestions)
    ensures forall i :: 0 <= i < |r| ==> r[i] in suggestions && ContainsIgnoringCase(r[i], value)
    ensures forall i :: 0 <= i < |suggestions| && ContainsIgnoringCase(suggestions[i], value)
                        ==> suggestions[i] in r
  {
    Filter(suggestions, SuggestionTest(value))
  }

  /** The effect that runs after `value` changes: for a non-empty value the list
      is recomputed and shown iff something matches; an empty value hides the
      list and leaves the last computed list in place. */
  function Refilter(w: Widget, suggestions: seq<string>): (r: Widget)
    ensures r.value == w.value
    ensures r.shown <==> w.value != "" && Matching(suggestions, w.value) != []
    ensures w.value != "" ==> r.filtered == Matching(suggestions, w.value)
    ensures w.value == "" ==> r.filtered == w.filtered
  {
    if |w.value| > 0 then
      var filtered := Matching(suggestions, w.value);
      w.(filtered := filtered, shown := |filtered| > 0)
    else w.(shown := false)
  }

  /** The widget as first rendered: hidden, nothing listed, then the effect runs once. */
  function Mount(value: string, suggestions: seq<string>): (r: Widget)
    ensures r.value == value
    ensures r.shown <==> value != "" && Matching(suggestions, value) != []
    ensures value == "" ==> r.filtered == []
  {
    Refilter(Widget(value, [], false), suggestions)
  }

  /** Typing: the host stores the new value, and the effect runs if it changed. */
  function TypeValue(w: Widget, v: string, suggestions: seq<string>): (r: Widget)
    ensures r.value == v
    ensures v == w.value ==> r == w
  {
    if v == w.value then w else Refilter(w.(value := v), suggestions)
  }

  /** Focus re-shows the list only when the value and the last list are non-empty. */
  function Focus(w: Widget): (r: Widget)
    ensures r.value == w.value && r.filtered == w.filtered
    ensures r.shown <==> w.shown || (w.value != "" && w.filtered != [])
  {
    if |w.value| > 0 && |w.filtered| > 0 then w.(shown := true) else w
  }

  /** `handleSuggestionClick` on its own: the value becomes the suggestion and
      the list is hidden. */
  function ClickHandler(w: Widget, s: string): (r: Widget)
    ensures r.value == s && !r.shown && r.filtered == w.filtered
  {
    w.(value := s, shown := false)
  }

  /** A click as the page runs it: the handler, then, because the value
      changed, the value effect once more. */
  function PickAsWritten(w: Widget, s: string, suggestions: seq<string>): (r: Widget)
    ensures r.value == s
    ensures r.shown <==> s != w.value && s != "" && Matching(suggestions, s) != []
  {
    var handled := ClickHandler(w, s);
    if s == w.value then handled else Refilter(handled, suggestions)
  }

  /** Clicking a suggestion other than the current value re-opens the list:
      the clicked suggestion matches itself, so the effect shows the list
      again right after the handler hid it. */
  lemma PickAsWrittenReopens(w: Widget, s: string, suggestions: seq<string>)
    requires s in suggestions && s != "" && s != w.value
    ensures PickAsWritten(w, s, suggestions).value == s
    ensures PickAsWritten(w, s, suggestions).shown
  {
    ContainsSelf(Lower(s));
    var i :| 0 <= i < |suggestions| && suggestions[i] == s;
    assert s in Matching(suggestions, s);
  }

  /** A click with the evidently intended outcome: the value becomes the
      suggestion, the list is recomputed for it, and the list stays hidden. */
  function Pick(w: Widget, s: string, suggestions: seq<string>): (r: Widget)
    ensures r.value == s && !r.shown
    ensures s != "" ==> r.filtered == Matching(suggestions, s)
  {
    Refilter(w.(value := s), suggestions).(shown := false)
  }

  datatype Event = Typed(v: string) | Focused | Picked(s: string)

  /** The widget's reaction to one user event, a click running as the page
      runs it. */
  function StepAsWritten(w: Widget, e: Event, suggestions: seq<string>): (r: Widget)
    ensures e.Typed? ==> r.value == e.v
    ensures e.Focused? ==> r.value == w.value && r.filtered == w.filtered
    ensures e.Picked? ==> r.value == e.s
  {
    match e
    case Typed(v) => TypeValue(w, v, suggestions)
    case Focused => Focus(w)
    case Picked(s) => PickAsWritten(w, s, suggestions)
  }

  /** The widget's reaction to one user event, with the intended click. */
  function Step(w: Widget, e: Event, suggestions: seq<string>): (r: Widget)
    ensures e.Typed? ==> r.value == e.v
    ensures e.Focused? ==> r.value == w.value && r.filtered == w.filtered
    ensures e.Picked? ==> r.value == e.s && !r.shown
  {
    match e
    case Typed(v) => TypeValue(w, v, suggestions)
    case Focused => Focus(w)
    case Picked(s) => Pick(w, s, suggestions)
  }

  /** The state the widget keeps between events: for a non-empty value the
      list is the matching suggestions, and a shown list is a non-empty list
      for a non-empty value. */
  predicate Consistent(w: Widget, suggestions: seq<string>)
  {
    && (w.value != "" ==> w.filtered == Matching(suggestions, w.value))
    && (w.shown ==> w.value != "" && w.filtered != [])
  }

  /** The widget as the page runs it starts consistent, and every event,
      the re-opening click included, keeps it so. */
  lemma StepAsWrittenKeepsConsistent(w: Widget, e: Event, suggestions: seq<string>)
    ensures Consistent(Mount(w.value, suggestions), suggestions)
    ensures Consistent(w, suggestions) ==> Consistent(StepAsWritten(w, e, suggestions), suggestions)
  {
  }

  /** With the intended click the widget also stays consistent. */
  lemma StepKeepsConsistent(w: Widget, e: Event, suggestions: seq<string>)
    ensures Consistent(Mount(w.value, suggestions), suggestions)
    ensures Consistent(w, suggestions) ==> Consistent(Step(w, e, suggestions), suggestions)
  {
  }

  /** After a value change the list is shown iff the value is non-empty and
      some suggestion matches; an empty value always hides it. */
  lemma TypingShowsExactly(w: Widget, v: string, suggestions: seq<string>)
    requires v != w.value
    ensures TypeValue(w, v, suggestions).shown <==> v != "" && Matching(suggestions, v) != []
    ensures v == "" ==> !TypeValue(w, v, suggestions).shown
  {
  }

  /** In a consistent widget, focus shows the list iff it was shown already or
      the value is non-empty and some suggestion matches it. */
  lemma FocusShowsExactly(w: Widget, suggestions: seq<string>)
    requires Consistent(w, suggestions)
    ensures Focus(w).shown <==> w.shown || (w.value != "" && Matching(suggestions, w.value) != [])
  {
  }
}

=== FILE: basics.dfy ===
/** Generic building blocks shared by the whole model: an optional value,
    order-preserving filtering of a sequence, and the subsequence relation
    that filtering establishes. */
module Basics {

  /** A value that may be absent (optional record fields and absent results). */
  datatype Option<+T> = None | Some(value: T)

  /** `xs` can be obtained from `ys` by deleting elements, keeping the order of the rest. */
  predicate IsSubseq<T(==)>(xs: seq<T>, ys: seq<T>)
    decreases |ys|
  {
    xs == []
    || (ys != []
        && ((xs[0] == ys[0] && IsSubseq(xs[1..], ys[1..])) || IsSubseq(xs, ys[1..])))
  }

  /** Every sequence is a subsequence of itself. */
  lemma {:induction false} SubseqRefl<T>(xs: seq<T>)
    ensures IsSubseq(xs, xs)
    decreases |xs|
  {
    if xs != [] {
      SubseqRefl(xs[1..]);
    }
  }

  /** The subsequence relation is transitive. */
  lemma {:induction false} SubseqTrans<T>(a: seq<T>, b: seq<T>, c: seq<T>)
    requires IsSubseq(a, b) && IsSubseq(b, c)
    ensures IsSubseq(a, c)
    decreases |c|
  {
    if a == [] {
    } else if b[0] == c[0] && IsSubseq(b[1..], c[1..]) {
      if a[0] == b[0] && IsSubseq(a[1..], b[1..]) {
        SubseqTrans(a[1..], b[1..], c[1..]);
      } else {
        SubseqTrans(a, b[1..], c[1..]);
      }
    } else {
      SubseqTrans(a, b, c[1..]);
    }
  }

  /** The elements of `s` that satisfy `p`, in their original order
      (JavaScript's `Array.prototype.filter`). */
  function Filter<T>(s: seq<T>, p: T -> bool): (r: seq<T>)
    ensures |r| <= |s|
    ensures IsSubseq(r, s)
    ensures forall i :: 0 <= i < |r| ==> r[i] in s && p(r[i])
    ensures forall i :: 0 <= i < |s| && p(s[i]) ==> s[i] in r
    decreases |s|
  {
    if s == [] then []
    else if p(s[0]) then [s[0]] + Filter(s[1..], p)
    else Filter(s[1..], p)
  }

  /** Filtering with a predicate that holds everywhere on `s` keeps all of `s`. */
  lemma {:induction false} FilterKeepsAll<T>(s: seq<T>, p: T -> bool)
    requires forall x :: x in s ==> p(x)
    ensures Filter(s, p) == s
    decreases |s|
  {
    if s != [] {
      assert s[0] in s;
      assert forall x :: x in s[1..] ==> x in s;
      FilterKeepsAll(s[1..], p);
      assert [s[0]] + s[1..] == s;
    }
  }

  /** Two predicates that agree on the elements of `s` filter `s` identically. */
  lemma {:induction false} FilterCongruent<T>(s: seq<T>, p: T -> bool, q: T -> bool)
    requires forall x :: x in s ==> p(x) == q(x)
    ensures Filter(s, p) == Filter(s, q)
    decreases |s|
  {
    if s != [] {
      assert s[0] in s;
      assert forall x :: x in s[1..] ==> x in s;
      FilterCongruent(s[1..], p, q);
    }
  }

  /** Filtering twice is filtering once by the conjunction. */
  lemma {:induction false} FilterFuse<T>(s: seq<T>, p: T -> bool, q: T -> bool, pq: T -> bool)
    requires forall x :: x in s ==> pq(x) == (p(x) && q(x))
    ensures Filter(Filter(s, p), q) == Filter(s, pq)
    decreases |s|
  {
    if s != [] {
      assert s[0] in s;
      assert forall x :: x in s[1..] ==> x in s;
      FilterFuse(s[1..], p, q, pq);
    }
  }

  /** A stronger predicate keeps a subsequence of what a weaker one keeps. */
  lemma {:induction false} FilterMonotone<T>(s: seq<T>, p: T -> bool, q: T -> bool)
    requires forall x :: x in s && p(x) ==> q(x)
    ensures IsSubseq(Filter(s, p), Filter(s, q))
    decreases |s|
  {
    if s != [] {
      assert s[0] in s;
      assert forall x :: x in s[1..] ==> x in s;
      FilterMonotone(s[1..], p, q);
      var fp, fq := Filter(s[1..], p), Filter(s[1..], q);
      if p(s[0]) {
        assert Filter(s, p) == [s[0]] + fp;
        assert Filter(s, q) == [s[0]] + fq;
        assert ([s[0]] + fp)[1..] == fp;
        assert ([s[0]] + fq)[1..] == fq;
      } else if q(s[0]) {
        assert Filter(s, q) == [s[0]] + fq;
        assert ([s[0]] + fq)[1..] == fq;
      }
    }
  }

  /** The number of elements of `s` that satisfy `p`. */
  function CountWhere<T>(s: seq<T>, p: T -> bool): (n: nat)
    ensures n == |Filter(s, p)|
    ensures n <= |s|
    decreases |s|
  {
    if s == [] then 0
    else (if p(s[0]) then 1 else 0) + CountWhere(s[1..], p)
  }

  /** Elements satisfying `p` and elements failing it together make up all of `s`. */
  lemma {:induction false} CountSplit<T>(s: seq<T>, p: T -> bool, notP: T -> bool)
    requires forall x :: x in s ==> notP(x) == !p(x)
    ensures CountWhere(s, p) + CountWhere(s, notP) == |s|
    decreases |s|
  {
    if s != [] {
      assert s[0] in s;
      assert forall x :: x in s[1..] ==> x in s;
      CountSplit(s[1..], p, notP);
    }
  }

  /** Counts of two predicates that never hold together add up to the count
      of their disjunction. */
  lemma {:induction false} CountDisjoint<T>(s: seq<T>, p: T -> bool, q: T -> bool, pq: T -> bool)
    requires forall x :: x in s ==> !(p(x) && q(x)) && pq(x) == (p(x) || q(x))
    ensures CountWhere(s, p) + CountWhere(s, q) == CountWhere(s, pq)
    decreases |s|
  {
    if s != [] {
      assert s[0] in s;
      assert forall x :: x in s[1..] ==> x in s;
      CountDisjoint(s[1..], p, q, pq);
    }
  }

  /** At most the first `n` elements of `s`. */
  function Take<T>(s: seq<T>, n: nat): (r: seq<T>)
    ensures |r| == if |s| < n then |s| else n
    ensures r <= s
  {
    if |s| < n then s else s[..n]
  }
}

=== FILE: business_page.dfy ===
/** The page of one listing: its lookup by the id in the address, the
    average shown next to its reviews, the star picker and the review form. */
module BusinessPage {
  import opened Basics
  import opened Listing

  datatype ReviewForm = ReviewForm(userName: string, rating: int, comment: string)

  /** The review form as the page opens and after each submission. */
  const DefaultForm: ReviewForm := ReviewForm("", 5, "")

  /** The ratings the star buttons offer. */
  const RatingChoices: seq<int> := [1, 2, 3, 4, 5]

  /** A click on a star button: the form's rating becomes that star's number. */
  function PickRating(form: ReviewForm, rating: int): (r: ReviewForm)
    requires rating in RatingChoices
    ensures 1 <= r.rating <= 5
    ensures r.rating == rating && r.userName == form.userName && r.comment == form.comment
  {
    form.(rating := rating)
  }

  /** `(sum / n).toFixed(1)` in tenths: the integer nearest to 10 * sum / n,
      a tie going away from zero. */
  function ToFixedTenths(sum: int, n: int): (t: int)
    requires n > 0
    ensures sum >= 0 ==> -n <= 2 * (10 * sum - n * t) < n
    ensures sum < 0 ==> -n < 2 * (10 * sum - n * t) <= n
  {
    if sum >= 0 then (20 * sum + n) / (2 * n)
    else -((-20 * sum + n) / (2 * n))
  }

  /** The average shown on the page: "N/A" (`None`) for a listing without
      reviews, else the mean of its reviews to one decimal, recomputed from
      the reviews rather than read from the stored rating. */
  function DisplayedAverage(b: Business): (r: Option<int>)
    ensures r.None? <==> ReviewsOf(b) == []
    ensures r.Some? ==>
              var n := |ReviewsOf(b)|;
              var s := SumRatings(ReviewsOf(b));
              -n <= 2 * (10 * s - n * r.value) <= n
  {
    var rs := ReviewsOf(b);
    if |rs| > 0 then Some(ToFixedTenths(SumRatings(rs), |rs|)) else None
  }

  /** For a listing whose ratings do not sum below zero, the shown average and
      the rounding used when a review is stored agree. */
  lemma DisplayedIsStoredRounding(b: Business)
    requires ReviewsOf(b) != [] && SumRatings(ReviewsOf(b)) >= 0
    ensures DisplayedAverage(b) == Some(MeanTenths(ReviewsOf(b)))
  {
    var rs := ReviewsOf(b);
    NearestTenthUnique(rs, ToFixedTenths(SumRatings(rs), |rs|));
  }

  /** The listing's own stored rating is not what the page shows: the first
      seeded listing stores 4.8 but its two reviews average 4.5. */
  lemma SeedShowsMeanNotStoredRating()
    ensures DisplayedAverage(Seed()[0]) == Some(45)
    ensures Seed()[0].ratingTenths == Some(48)
  {
    SeedRatingIsNotMean();
    DisplayedIsStoredRounding(Seed()[0]);
  }

  datatype Outcome = NotFound | Rejected | Submitted

  datatype PageResult = PageResult(businesses: seq<Business>, form: ReviewForm, outcome: Outcome)

  /** `handleReviewSubmit` on the page for `pageId`. An id no listing carries
      shows the "not found" card and no form. A form without a name or a
      comment is refused and nothing changes. Otherwise the review is added
      to the listing and the form is reset. */
  function SubmitReview(bs: seq<Business>, pageId: int, form: ReviewForm, now: Stamp): (r: PageResult)
    ensures r.outcome == NotFound <==> FindById(bs, pageId).None?
    ensures r.outcome == Rejected <==>
              FindById(bs, pageId).Some? && (form.userName == "" || form.comment == "")
    ensures r.outcome != Submitted ==> r.businesses == bs && r.form == form
    ensures r.outcome == Submitted ==>
              && r.businesses == AddReview(bs, pageId, ReviewDraft(form.userName, form.rating, form.comment), now)
              && r.form == DefaultForm
  {
    match FindById(bs, pageId)
    case None => PageResult(bs, form, NotFound)
    case Some(b) =>
      if form.userName == "" || form.comment == "" then PageResult(bs, form, Rejected)
      else
        PageResult(AddReview(bs, b.id, ReviewDraft(form.userName, form.rating, form.comment), now),
                   DefaultForm, Submitted)
  }

  /** After a submission the page finds the same listing with the new review
      at the end of its list, and the average it shows is the rating stored
      with that review. */
  lemma SubmittedReviewShown(bs: seq<Business>, pageId: int, form: ReviewForm, now: Stamp)
    requires FindById(bs, pageId).Some? && form.userName != "" && form.comment != ""
    requires RatingsInRange(ReviewsOf(FindById(bs, pageId).value)) && 1 <= form.rating <= 5
    ensures var found := FindById(SubmitReview(bs, pageId, form, now).businesses, pageId);
            var before := FindById(bs, pageId).value;
            && found.Some?
            && ReviewsOf(found.value) == ReviewsOf(before) + [Review(form.userName, form.rating, form.comment, now)]
            && found.value.ratingTenths.Some?
            && DisplayedAverage(found.value) == found.value.ratingTenths
  {
    var d := ReviewDraft(form.userName, form.rating, form.comment);
    var before := FindById(bs, pageId).value;
    FindAfterAddReview(bs, pageId, d, now);
    var after := WithReview(before, d, now);
    RatingsAppend(ReviewsOf(before), Review(form.userName, form.rating, form.comment, now));
    DisplayedIsStoredRounding(after);
  }

  /** Appending an in-range review keeps every rating in range. */
  lemma RatingsAppend(rs: seq<Review>, x: Review)
    requires RatingsInRange(rs) && 1 <= x.rating <= 5
    ensures RatingsInRange(rs + [x])
  {
  }

  /** Whatever the user clicks, the form's rating stays one of the offered
      stars, and a reset restores five stars. */
  lemma FormRatingStaysValid(bs: seq<Business>, pageId: int, form: ReviewForm, rating: int, now: Stamp)
    requires form.rating in RatingChoices && rating in RatingChoices
    ensures PickRating(form, rating).rating in RatingChoices
    ensures SubmitReview(bs, pageId, form, now).form.rating in RatingChoices
  {
  }
}

=== FILE: home_page.dfy ===
/** The home page's derived values: listings per featured category, the
    featured (verified) listings, the newest reviews across all listings, and
    the link to the search page. */
module HomePage {
  import opened Basics
  import opened Listing
  import opened QueryString
  import SearchPage

  /** The five categories the home page shows, in display order. */
  const ShownCategories: seq<string> := ["Plumbing", "Healthcare", "Education", "Home Repair", "Auto Services"]

  datatype CategoryCount = CategoryCount(name: string, count: nat)

  function CategoryTest(name: string): Business -> bool { (b: Business) => b.category == name }

  /** The category of every listing, in collection order. */
  function CategoriesOf(bs: seq<Business>): (cs: seq<string>)
    ensures |cs| == |bs|
    ensures forall i :: 0 <= i < |bs| ==> cs[i] == bs[i].category
  {
    if bs == [] then [] else [bs[0].category] + CategoriesOf(bs[1..])
  }

  /** Counting the listings of a category is counting that category among all
      categories. */
  lemma {:induction false} CountIsMultiplicity(bs: seq<Business>, name: string)
    ensures CountWhere(bs, CategoryTest(name)) == multiset(CategoriesOf(bs))[name]
    decreases |bs|
  {
    if bs != [] {
      CountIsMultiplicity(bs[1..], name);
      assert CategoriesOf(bs) == [bs[0].category] + CategoriesOf(bs[1..]);
    }
  }

  /** For each name, in order, the number of listings whose category is
      exactly that name. */
  function CountsFor(bs: seq<Business>, names: seq<string>): (r: seq<CategoryCount>)
    ensures |r| == |names|
    ensures forall i :: 0 <= i < |r| ==>
              r[i].name == names[i] && r[i].count == multiset(CategoriesOf(bs))[names[i]]
  {
    if names == [] then []
    else
      CountIsMultiplicity(bs, names[0]);
      [CategoryCount(names[0], CountWhere(bs, CategoryTest(names[0])))] + CountsFor(bs, names[1..])
  }

  /** The counts shown on the home page, one per shown category. */
  function CategoryCounts(bs: seq<Business>): (r: seq<CategoryCount>)
    ensures |r| == |ShownCategories|
    ensures forall i :: 0 <= i < |r| ==>
              r[i].name == ShownCategories[i] && r[i].count == multiset(CategoriesOf(bs))[ShownCategories[i]]
  {
    CountsFor(bs, ShownCategories)
  }

  function Total(cs: seq<CategoryCount>): nat
  {
    if cs == [] then 0 else cs[0].count + Total(cs[1..])
  }

  function InNamesTest(names: seq<string>): Business -> bool { (b: Business) => b.category in names }
  function NotInNamesTest(names: seq<string>): Business -> bool { (b: Business) => b.category !in names }

  predicate Distinct(names: seq<string>)
  {
    forall i, j :: 0 <= i < j < |names| ==> names[i] != names[j]
  }

  /** For distinct names, the counts add up to the listings in any of them. */
  lemma {:induction false} TotalIsCountInNames(bs: seq<Business>, names: seq<string>)
    requires Distinct(names)
    ensures Total(CountsFor(bs, names)) == CountWhere(bs, InNamesTest(names))
    decreases |names|
  {
    if names == [] {
      FilterCongruent(bs, InNamesTest(names), (b: Business) => false);
      assert Filter(bs, (b: Business) => false) == [];
    } else {
      TotalIsCountInNames(bs, names[1..]);
      CountIsMultiplicity(bs, names[0]);
      assert forall x :: x in names <==> x == names[0] || x in names[1..];
      CountDisjoint(bs, CategoryTest(names[0]), InNamesTest(names[1..]), InNamesTest(names));
    }
  }

  /** The five shown names differ (already in their lengths). */
  lemma ShownCategoriesDistinct()
    ensures Distinct(ShownCategories)
  {
    var lengths := [8, 10, 9, 11, 13];
    assert |ShownCategories| == 5;
    forall i | 0 <= i < 5
      ensures |ShownCategories[i]| == lengths[i]
    {
    }
  }

  /** The shown counts and the listings of any other category account for
      every listing exactly once. */
  lemma CountsPartition(bs: seq<Business>)
    ensures Total(CategoryCounts(bs)) + CountWhere(bs, NotInNamesTest(ShownCategories)) == |bs|
  {
    var names := ShownCategories;
    ShownCategoriesDistinct();
    TotalIsCountInNames(bs, names);
    CountSplit(bs, InNamesTest(names), NotInNamesTest(names));
  }

  // ---------------------------------------------------------------------------
  // Featured listings

  /** The first four verified listings, in collection order. */
  function Featured(bs: seq<Business>): (r: seq<Business>)
    ensures |r| == if CountWhere(bs, VerifiedTest()) < 4 then CountWhere(bs, VerifiedTest()) else 4
    ensures IsSubseq(r, bs)
    ensures forall i :: 0 <= i < |r| ==> r[i].verified
    ensures r <= Filter(bs, VerifiedTest())
    ensures |r| < 4 ==> forall i :: 0 <= i < |bs| && bs[i].verified ==> bs[i] in r
  {
    var verified := Filter(bs, VerifiedTest());
    var r := Take(verified, 4);
    assert IsSubseq(r, verified) by { PrefixIsSubseq(r, verified); }
    SubseqTrans(r, verified, bs);
    r
  }

  lemma {:induction false} PrefixIsSubseq<T>(p: seq<T>, s: seq<T>)
    requires p <= s
    ensures IsSubseq(p, s)
    decreases |s|
  {
    if p != [] {
      PrefixIsSubseq(p[1..], s[1..]);
    }
  }

  // ---------------------------------------------------------------------------
  // Newest reviews

  /** A review together with the name of the listing it was written for. */
  datatype TaggedReview = TaggedReview(review: Review, businessName: string)

  function Key(t: TaggedReview): int { t.review.createdAt.millis }

  function Tag(rs: seq<Review>, name: string): (r: seq<TaggedReview>)
    ensures forall t :: t in r <==> t.businessName == name && t.review in rs
  {
    if rs == [] then [] else [TaggedReview(rs[0], name)] + Tag(rs[1..], name)
  }

  /** Every review of every listing (an absent list counting as empty), tagged
      with its listing's name, listing by listing. */
  function AllReviews(bs: seq<Business>): (r: seq<TaggedReview>)
    ensures bs == [] ==> r == []
    ensures forall i, rv :: 0 <= i < |bs| && rv in ReviewsOf(bs[i]) ==> TaggedReview(rv, bs[i].name) in r
  {
    if bs == [] then [] else Tag(ReviewsOf(bs[0]), bs[0].name) + AllReviews(bs[1..])
  }

  /** The listing a tagged review comes from. */
  predicate ReviewOf(bs: seq<Business>, t: TaggedReview, i: int)
  {
    0 <= i < |bs| && t.businessName == bs[i].name && t.review in ReviewsOf(bs[i])
  }

  /** The collected reviews are exactly the reviews of the listings, each
      tagged with its own listing's name. */
  lemma {:induction false} AllReviewsExact(bs: seq<Business>, t: TaggedReview)
    ensures t in AllReviews(bs) <==> exists i :: ReviewOf(bs, t, i)
    decreases |bs|
  {
    if bs != [] {
      AllReviewsExact(bs[1..], t);
      if t in Tag(ReviewsOf(bs[0]), bs[0].name) {
        assert ReviewOf(bs, t, 0);
      }
      if t in AllReviews(bs[1..]) {
        var i :| ReviewOf(bs[1..], t, i);
        assert ReviewOf(bs, t, i + 1);
      }
      if exists i :: ReviewOf(bs, t, i) {
        var i :| ReviewOf(bs, t, i);
        if i > 0 {
          assert ReviewOf(bs[1..], t, i - 1);
        }
      }
    }
  }

  /** Newest first: no review is older than one after it. */
  predicate NewestFirst(s: seq<TaggedReview>)
  {
    forall i, j :: 0 <= i < j < |s| ==> Key(s[i]) >= Key(s[j])
  }

  /** `t` placed into a newest-first list after every strictly newer review. */
  function Insert(t: TaggedReview, s: seq<TaggedReview>): (r: seq<TaggedReview>)
    requires NewestFirst(s)
    ensures NewestFirst(r)
    ensures multiset(r) == multiset(s) + multiset{t}
    ensures |r| == |s| + 1
    ensures r[0] == t || (s != [] && r[0] == s[0])
  {
    if s == [] || Key(s[0]) <= Key(t) then ConsNewestFirst(t, s); [t] + s
    else
      var rest := Insert(t, s[1..]);
      ConsNewestFirst(s[0], rest);
      assert s == [s[0]] + s[1..];
      [s[0]] + rest
  }

  /** A review no older than the head of a newest-first list can go in front. */
  lemma ConsNewestFirst(x: TaggedReview, s: seq<TaggedReview>)
    requires NewestFirst(s) && (s != [] ==> Key(x) >= Key(s[0]))
    ensures NewestFirst([x] + s)
  {
    var r := [x] + s;
    forall i, j | 0 <= i < j < |r|
      ensures Key(r[i]) >= Key(r[j])
    {
      if i == 0 && j > 1 {
        assert Key(s[0]) >= Key(s[j - 1]);
      }
    }
  }

  /** The sort by timestamp, newest first (an insertion sort, stable as the
      browser's sort is). */
  function SortNewestFirst(s: seq<TaggedReview>): (r: seq<TaggedReview>)
    ensures NewestFirst(r)
    ensures multiset(r) == multiset(s)
    ensures |r| == |s|
  {
    if s == [] then []
    else
      assert s == [s[0]] + s[1..];
      Insert(s[0], SortNewestFirst(s[1..]))
  }

  /** The first `k` entries of a newest-first list are newest first, are
      taken from it, and what they leave out is no newer than the `k`-th. */
  lemma PrefixIsNewest(sorted: seq<TaggedReview>, k: nat)
    requires NewestFirst(sorted) && 0 < k <= |sorted|
    ensures NewestFirst(sorted[..k])
    ensures multiset(sorted[..k]) <= multiset(sorted)
    ensures forall t :: t in multiset(sorted) - multiset(sorted[..k]) ==> Key(t) <= Key(sorted[k - 1])
  {
    var rest := sorted[k..];
    assert sorted == sorted[..k] + rest;
    assert multiset(sorted) == multiset(sorted[..k]) + multiset(rest);
    forall t | t in multiset(sorted) - multiset(sorted[..k])
      ensures Key(t) <= Key(sorted[k - 1])
    {
      assert t in rest;
      var j :| 0 <= j < |rest| && rest[j] == t;
      assert sorted[k + j] == t;
    }
  }

  /** `r` is drawn from `all`, and nothing of `all` left out of `r` is newer
      than the last entry of `r`. */
  predicate TopOf(r: seq<TaggedReview>, all: seq<TaggedReview>)
  {
    && multiset(r) <= multiset(all)
    && (|r| > 0 ==> forall t :: t in multiset(all) - multiset(r) ==> Key(t) <= Key(r[|r| - 1]))
  }

  /** The `n` newest of some reviews: newest first, taken from them, and
      none left out is newer than the last one kept. */
  function Newest(all: seq<TaggedReview>, n: nat): (r: seq<TaggedReview>)
    ensures |r| == if |all| < n then |all| else n
    ensures NewestFirst(r)
    ensures TopOf(r, all)
  {
    var sorted := SortNewestFirst(all);
    var k := if |sorted| < n then |sorted| else n;
    if k > 0 then NewestOfSorted(all, sorted, k); sorted[..k] else []
  }

  /** A prefix of a newest-first arrangement of `all` is newest first and is
      the top of `all`. */
  lemma NewestOfSorted(all: seq<TaggedReview>, sorted: seq<TaggedReview>, k: nat)
    requires NewestFirst(sorted) && multiset(sorted) == multiset(all) && 0 < k <= |sorted|
    ensures NewestFirst(sorted[..k])
    ensures TopOf(sorted[..k], all)
  {
    PrefixIsNewest(sorted, k);
  }

  /** The three newest reviews across all listings: at most three, newest
      first, each a review of some listing under that listing's name, and none
      left out newer than the last one shown. */
  function RecentReviews(bs: seq<Business>): (r: seq<TaggedReview>)
    ensures |r| == if |AllReviews(bs)| < 3 then |AllReviews(bs)| else 3
    ensures NewestFirst(r)
    ensures multiset(r) <= multiset(AllReviews(bs))
    ensures |r| > 0 ==> forall t :: t in multiset(AllReviews(bs)) - multiset(r) ==> Key(t) <= Key(r[|r| - 1])
  {
    Newest(AllReviews(bs), 3)
  }

  /** Every review shown comes from a listing and carries that listing's name. */
  lemma RecentReviewsAreGenuine(bs: seq<Business>)
    ensures forall t :: t in RecentReviews(bs) ==> exists i :: ReviewOf(bs, t, i)
  {
    var r := RecentReviews(bs);
    forall t | t in r
      ensures exists i :: ReviewOf(bs, t, i)
    {
      assert t in multiset(r);
      AllReviewsExact(bs, t);
    }
  }

  // ---------------------------------------------------------------------------
  // The search link

  function HomeParams(q: string, city: string): (ps: seq<Param>)
    ensures Get(ps, "q") == (if q != "" then Some(q) else None)
    ensures Get(ps, "city") == (if city != "" then Some(city) else None)
    ensures Get(ps, "category").None?
    ensures ps == [] <==> q == "" && city == ""
  {
    var withQ := SetIfNonEmpty([], "q", q);
    GetAppend([], Param("q", q), "city");
    GetAppend([], Param("q", q), "category");
    GetAppend(withQ, Param("city", city), "q");
    GetAppend(withQ, Param("city", city), "city");
    GetAppend(withQ, Param("city", city), "category");
    SetIfNonEmpty(withQ, "city", city)
  }

  /** `handleSearch`: the search page's address, with a query string only when
      a query or a city was typed. */
  function SearchUrl(q: string, city: string): (url: string)
    ensures q == "" && city == "" ==> url == "/search"
    ensures q != "" || city != "" ==>
              url == "/search?" + Serialize(HomeParams(q, city)) && Serialize(HomeParams(q, city)) != ""
  {
    var query := Serialize(HomeParams(q, city));
    "/search" + (if query != "" then "?" + query else "")
  }

  /** The search page opened from this link starts with the typed query and
      city and with every category. */
  lemma SearchLinkOpensSameFilters(q: string, city: string)
    ensures SearchPage.FiltersFromUrl(HomeParams(q, city)) == SearchPage.Filters(q, city, SearchPage.AllCategories)
  {
  }
}

=== FILE: listing.dfy ===
/** The listing store: business and review records, the built-in seed, the
    load-or-seed decision, and the four store operations (create a listing,
    set its verification flag, add a review, find by id). Every operation
    is a function from the current collection to the next one. */
module Listing {
  import opened Basics

  /** An ISO-8601 timestamp, kept as text, with the millisecond count
      `new Date(iso).getTime()` gives it (used only for ordering). */
  datatype Stamp = Stamp(iso: string, millis: int)

  datatype Review = Review(userName: string, rating: int, comment: string, createdAt: Stamp)

  /** A directory listing. The aggregate rating is kept in tenths
      (4.8 is `Some(48)`); an absent review list is `None`. */
  datatype Business = Business(
    id: int,
    name: string,
    ownerName: string,
    category: string,
    city: string,
    address: Option<string>,
    phone: string,
    description: Option<string>,
    verified: bool,
    ratingTenths: Option<int>,
    reviews: Option<seq<Review>>,
    createdAt: Stamp)

  /** What a caller supplies to create a listing: every field except the id,
      the creation time, the verification flag and the reviews. */
  datatype NewListing = NewListing(
    name: string,
    ownerName: string,
    category: string,
    city: string,
    address: Option<string>,
    phone: string,
    description: Option<string>,
    ratingTenths: Option<int>)

  /** What a caller supplies to add a review: everything but the timestamp. */
  datatype ReviewDraft = ReviewDraft(userName: string, rating: int, comment: string)

  /** The reviews of `b`, an absent list counting as empty. */
  function ReviewsOf(b: Business): seq<Review>
  {
    match b.reviews
    case None => []
    case Some(rs) => rs
  }

  function VerifiedTest(): Business -> bool { (b: Business) => b.verified }
  function PendingTest(): Business -> bool { (b: Business) => !b.verified }

  predicate UniqueIds(bs: seq<Business>)
  {
    forall i, j :: 0 <= i < j < |bs| ==> bs[i].id != bs[j].id
  }

  // ---------------------------------------------------------------------------
  // Ratings

  /** The sum of the ratings; n ratings in 1..5 sum to between n and 5n. */
  function SumRatings(rs: seq<Review>): (s: int)
    ensures RatingsInRange(rs) ==> |rs| <= s <= 5 * |rs|
  {
    if rs == [] then 0 else SumRatings(rs[..|rs| - 1]) + rs[|rs| - 1].rating
  }

  /** The mean rating of `rs` in tenths, rounded half up (`Math.round(mean * 10)`).
      With n reviews summing to S, the result t is the integer nearest to 10S/n,
      ties going up: 10S/n - t lies in [-1/2, 1/2). */
  function MeanTenths(rs: seq<Review>): (t: int)
    requires |rs| > 0
    ensures -|rs| <= 2 * (10 * SumRatings(rs) - |rs| * t) < |rs|
  {
    (20 * SumRatings(rs) + |rs|) / (2 * |rs|)
  }

  /** A multiple of a positive `n` strictly between -n and n is zero. */
  lemma MultipleInWindow(n: int, d: int)
    requires n > 0 && -n < n * d < n
    ensures d == 0
  {
  }

  /** The rounding is determined: only one integer lies in that half-open window. */
  lemma {:induction false} NearestTenthUnique(rs: seq<Review>, t: int)
    requires |rs| > 0
    requires -|rs| <= 2 * (10 * SumRatings(rs) - |rs| * t) < |rs|
    ensures t == MeanTenths(rs)
  {
    var n, m, s := |rs|, MeanTenths(rs), SumRatings(rs);
    var a, b := 10 * s - n * t, 10 * s - n * m;
    assert n * (m - t) == a - b;
    MultipleInWindow(n, m - t);
  }

  predicate RatingsInRange(rs: seq<Review>)
  {
    forall i :: 0 <= i < |rs| ==> 1 <= rs[i].rating <= 5
  }

  /** With every rating in 1..5 the rounded mean lies in 1.0 ..= 5.0. */
  lemma MeanTenthsInRange(rs: seq<Review>)
    requires |rs| > 0 && RatingsInRange(rs)
    ensures 10 <= MeanTenths(rs) <= 50
  {
    RoundedMeanBounds(|rs|, SumRatings(rs), MeanTenths(rs));
  }

  /** The arithmetic behind it: n values in 1..5 summing to s, rounded to t
      tenths, give 10 <= t <= 50. */
  lemma RoundedMeanBounds(n: int, s: int, t: int)
    requires n > 0 && n <= s <= 5 * n
    requires -n <= 2 * (10 * s - n * t) < n
    ensures 10 <= t <= 50
  {
    if t > 50 {
      MulMono(n, 51, t);
      assert false;
    }
    if t < 10 {
      MulMono(n, t, 9);
      assert false;
    }
  }

  /** Multiplying by a positive number keeps order. */
  lemma MulMono(n: int, a: int, b: int)
    requires n > 0 && a <= b
    ensures n * a <= n * b
  {
    assert n * b - n * a == n * (b - a);
  }

  // ---------------------------------------------------------------------------
  // Creating a listing

  /** `Math.max(...ids, 0)`. */
  function MaxId(bs: seq<Business>): (m: int)
    ensures m >= 0
    ensures forall i :: 0 <= i < |bs| ==> bs[i].id <= m
    ensures m == 0 || exists i :: 0 <= i < |bs| && bs[i].id == m
  {
    if bs == [] then 0
    else
      var rest := MaxId(bs[1..]);
      if bs[0].id > rest then bs[0].id else rest
  }

  /** The id a new listing receives: one more than the largest id, and 1 for an
      empty collection. */
  function NextId(bs: seq<Business>): (id: int)
    ensures id >= 1
    ensures forall i :: 0 <= i < |bs| ==> bs[i].id < id
    ensures id == 1 || exists i :: 0 <= i < |bs| && bs[i].id == id - 1
    ensures bs == [] ==> id == 1
  {
    if |bs| > 0 then MaxId(bs) + 1 else 1
  }

  /** `addBusiness`: the new record goes in front; it is unverified, has an
      empty review list, the next id, the creation time `now`, and every other
      field from the caller; the old records follow unchanged and in order. */
  function AddBusiness(bs: seq<Business>, l: NewListing, now: Stamp): (r: seq<Business>)
    ensures |r| == |bs| + 1
    ensures r[1..] == bs
    ensures r[0].id == NextId(bs)
    ensures forall i :: 0 <= i < |bs| ==> bs[i].id < r[0].id
    ensures !r[0].verified && r[0].reviews == Some([]) && r[0].createdAt == now
    ensures r[0].name == l.name && r[0].ownerName == l.ownerName
    ensures r[0].category == l.category && r[0].city == l.city
    ensures r[0].address == l.address && r[0].phone == l.phone
    ensures r[0].description == l.description && r[0].ratingTenths == l.ratingTenths
  {
    var b := Business(NextId(bs), l.name, l.ownerName, l.category, l.city, l.address,
                      l.phone, l.description, false, l.ratingTenths, Some([]), now);
    [b] + bs
  }

  /** Creating a listing keeps the ids distinct. */
  lemma AddBusinessKeepsIdsUnique(bs: seq<Business>, l: NewListing, now: Stamp)
    requires UniqueIds(bs)
    ensures UniqueIds(AddBusiness(bs, l, now))
  {
    var r := AddBusiness(bs, l, now);
    forall i, j | 0 <= i < j < |r|
      ensures r[i].id != r[j].id
    {
      if i > 0 {
        assert r[i] == bs[i - 1] && r[j] == bs[j - 1];
      } else {
        assert r[j] == bs[j - 1];
      }
    }
  }

  // ---------------------------------------------------------------------------
  // Verification flag

  /** `updateBusinessVerification`: every record carrying `id` gets flag `v`;
      all other records, and all other fields, stay as they were. */
  function SetVerified(bs: seq<Business>, id: int, v: bool): (r: seq<Business>)
    ensures |r| == |bs|
    ensures forall i :: 0 <= i < |bs| && bs[i].id == id ==> r[i] == bs[i].(verified := v)
    ensures forall i :: 0 <= i < |bs| && bs[i].id != id ==> r[i] == bs[i]
  {
    if bs == [] then []
    else [if bs[0].id == id then bs[0].(verified := v) else bs[0]] + SetVerified(bs[1..], id, v)
  }

  /** An id no record carries leaves the collection as it was. */
  lemma SetVerifiedUnknownId(bs: seq<Business>, id: int, v: bool)
    requires forall i :: 0 <= i < |bs| ==> bs[i].id != id
    ensures SetVerified(bs, id, v) == bs
  {
  }

  /** Setting the same flag twice is setting it once. */
  lemma SetVerifiedIdempotent(bs: seq<Business>, id: int, v: bool)
    ensures SetVerified(SetVerified(bs, id, v), id, v) == SetVerified(bs, id, v)
  {
  }

  /** Only the flag changes: ids stay where they were, so distinct ids stay distinct. */
  lemma SetVerifiedKeepsIds(bs: seq<Business>, id: int, v: bool)
    ensures forall i :: 0 <= i < |bs| ==> SetVerified(bs, id, v)[i].id == bs[i].id
    ensures UniqueIds(bs) ==> UniqueIds(SetVerified(bs, id, v))
  {
  }

  // ---------------------------------------------------------------------------
  // Reviews

  /** `b` with `d` appended to its reviews, stamped `now`, and its rating
      recomputed from the whole list; nothing else about `b` changes. */
  function WithReview(b: Business, d: ReviewDraft, now: Stamp): (r: Business)
    ensures ReviewsOf(r) == ReviewsOf(b) + [Review(d.userName, d.rating, d.comment, now)]
    ensures r.ratingTenths == Some(MeanTenths(ReviewsOf(r)))
    ensures r.(reviews := b.reviews, ratingTenths := b.ratingTenths) == b
  {
    var updated := ReviewsOf(b) + [Review(d.userName, d.rating, d.comment, now)];
    b.(reviews := Some(updated), ratingTenths := Some(MeanTenths(updated)))
  }

  /** `addReview`: every record carrying `id` gets the review; all others stay. */
  function AddReview(bs: seq<Business>, id: int, d: ReviewDraft, now: Stamp): (r: seq<Business>)
    ensures |r| == |bs|
    ensures forall i :: 0 <= i < |bs| && bs[i].id == id ==> r[i] == WithReview(bs[i], d, now)
    ensures forall i :: 0 <= i < |bs| && bs[i].id != id ==> r[i] == bs[i]
  {
    if bs == [] then []
    else [if bs[0].id == id then WithReview(bs[0], d, now) else bs[0]] + AddReview(bs[1..], id, d, now)
  }

  /** An id no record carries leaves the collection as it was. */
  lemma AddReviewUnknownId(bs: seq<Business>, id: int, d: ReviewDraft, now: Stamp)
    requires forall i :: 0 <= i < |bs| ==> bs[i].id != id
    ensures AddReview(bs, id, d, now) == bs
  {
  }

  /** The previous rating plays no part: two records that differ only in their
      rating are equal once reviewed. */
  lemma PriorRatingDiscarded(b: Business, prior: Option<int>, d: ReviewDraft, now: Stamp)
    ensures WithReview(b.(ratingTenths := prior), d, now) == WithReview(b, d, now)
  {
  }

  /** With every rating of the target and the new one in 1..5, the new rating
      lies in 1.0 ..= 5.0. */
  lemma WithReviewRatingInRange(b: Business, d: ReviewDraft, now: Stamp)
    requires RatingsInRange(ReviewsOf(b)) && 1 <= d.rating <= 5
    ensures var t := WithReview(b, d, now).ratingTenths; t.Some? && 10 <= t.value <= 50
  {
    var r := WithReview(b, d, now);
    assert RatingsInRange(ReviewsOf(r));
    MeanTenthsInRange(ReviewsOf(r));
  }

  /** Adding a review keeps every id where it was, so distinct ids stay distinct. */
  lemma AddReviewKeepsIds(bs: seq<Business>, id: int, d: ReviewDraft, now: Stamp)
    ensures forall i :: 0 <= i < |bs| ==> AddReview(bs, id, d, now)[i].id == bs[i].id
    ensures UniqueIds(bs) ==> UniqueIds(AddReview(bs, id, d, now))
  {
  }

  /** A listing without reviews that is rated 5 and then 3 shows 5.0 and then 4.0. */
  lemma TwoReviewScenario(b: Business, first: Stamp, second: Stamp)
    requires ReviewsOf(b) == []
    ensures var once := WithReview(b, ReviewDraft("A", 5, "Good"), first);
            && once.ratingTenths == Some(50)
            && WithReview(once, ReviewDraft("B", 3, "Fair"), second).ratingTenths == Some(40)
  {
    var once := WithReview(b, ReviewDraft("A", 5, "Good"), first);
    var rs := ReviewsOf(once);
    assert rs[..0] == [];
    assert SumRatings(rs) == 5;
    var twice := WithReview(once, ReviewDraft("B", 3, "Fair"), second);
    assert ReviewsOf(twice)[..1] == rs;
    assert SumRatings(ReviewsOf(twice)) == 8;
  }

  // ---------------------------------------------------------------------------
  // Lookup

  /** `i` is the first position holding id `id`. */
  predicate IsFirstMatch(bs: seq<Business>, id: int, i: int)
  {
    0 <= i < |bs| && bs[i].id == id && forall j :: 0 <= j < i ==> bs[j].id != id
  }

  /** `getBusinessById` (`Array.prototype.find`): the first record carrying `id`,
      and `None` exactly when no record does. */
  function FindById(bs: seq<Business>, id: int): (r: Option<Business>)
    ensures r.None? <==> forall i :: 0 <= i < |bs| ==> bs[i].id != id
    ensures r.Some? ==> exists i :: IsFirstMatch(bs, id, i) && bs[i] == r.value
  {
    if bs == [] then None
    else if bs[0].id == id then (assert IsFirstMatch(bs, id, 0); Some(bs[0]))
    else
      var r := FindById(bs[1..], id);
      if r.Some? then
        var i :| IsFirstMatch(bs[1..], id, i) && bs[1..][i] == r.value;
        assert IsFirstMatch(bs, id, i + 1);
        r
      else r
  }

  /** Looking a record up after reviewing it finds the reviewed version. */
  lemma {:induction false} FindAfterAddReview(bs: seq<Business>, id: int, d: ReviewDraft, now: Stamp)
    ensures FindById(AddReview(bs, id, d, now), id)
            == match FindById(bs, id)
               case None => None
               case Some(b) => Some(WithReview(b, d, now))
    decreases |bs|
  {
    if bs != [] {
      FindAfterAddReview(bs[1..], id, d, now);
      assert AddReview(bs, id, d, now)[1..] == AddReview(bs[1..], id, d, now);
    }
  }

  /** Looking a record up after setting its flag finds the flag set. */
  lemma {:induction false} FindAfterSetVerified(bs: seq<Business>, id: int, v: bool)
    ensures FindById(SetVerified(bs, id, v), id)
            == match FindById(bs, id)
               case None => None
               case Some(b) => Some(b.(verified := v))
    decreases |bs|
  {
    if bs != [] {
      FindAfterSetVerified(bs[1..], id, v);
      assert SetVerified(bs, id, v)[1..] == SetVerified(bs[1..], id, v);
    }
  }

  // ---------------------------------------------------------------------------
  // Seed, storage and the load-or-seed decision

  /** Durable key-value storage (`localStorage`, `sessionStorage`). */
  type Storage = map<string, string>

  const BusinessesKey: string := "businesses"
  const VersionKey: string := "businessesVersion"
  const DataVersion: string := "v2_indian"

  /** What `JSON.parse` makes of the stored text: an array of records,
      some other JSON value, or an exception. */
  datatype Parsed = ParsedArray(items: seq<Business>) | NotArray | Malformed

  // Long texts of the seed, named so that proofs about the seed need not unfold them.
  const PlumbingAddress: string := "Shop 12, Andheri West, Mumbai, Maharashtra"
  const PlumbingAbout: string := "Professional plumbing services available 24/7. Licensed and insured with over 15 years of experience serving Mumbai."
  const PlumbingReview1: string := "Excellent service! Fixed our leak quickly."
  const PlumbingReview2: string := "Professional and affordable."
  const ClinicAddress: string := "Green Park, New Delhi"
  const ClinicAbout: string := "Family medicine and preventive care. Accepting new patients. MBBS, MD with 10+ years experience."
  const ClinicReview1: string := "Dr. Priya is amazing! Very caring and thorough."
  const TutoringAddress: string := "Koramangala, Bangalore, Karnataka"
  const TutoringAbout: string := "Expert tutoring for all subjects, from Class 1 to IIT-JEE preparation. Experienced faculty."
  const RenovationAddress: string := "T Nagar, Chennai, Tamil Nadu"
  const RenovationAbout: string := "Complete home renovation and interior design services. Quality work guaranteed."
  const AutoCareAddress: string := "Kothrud, Pune, Maharashtra"
  const AutoCareAbout: string := "Full-service auto repair and maintenance for all car brands. Certified mechanics."

  /** The five built-in listings used on first start and after a version change. */
  function Seed(): (r: seq<Business>)
    ensures |r| == 5
    ensures forall i :: 0 <= i < |r| ==> r[i].id == i + 1
  {
    [SeedPlumbing(), SeedClinic(), SeedTutoring(), SeedRenovation(), SeedAutoCare()]
  }

  function SeedPlumbing(): Business
  {
    Business(1, "QuickFix Plumbing Services", "Rajesh Kumar", "Plumbing", "Mumbai",
      Some(PlumbingAddress), "+91 98765 43210",
      Some(PlumbingAbout),
      true, Some(48),
      Some([ Review("Priya Sharma", 5, PlumbingReview1, Stamp("2024-01-10", 1704844800000)),
             Review("Amit Patel", 4, PlumbingReview2, Stamp("2024-01-08", 1704672000000)) ]),
      Stamp("2024-01-15", 1705276800000))
  }

  function SeedClinic(): Business
  {
    Business(2, "Dr. Priya Health Clinic", "Dr. Priya Mehta", "Healthcare", "Delhi",
      Some(ClinicAddress), "+91 98765 43211",
      Some(ClinicAbout),
      true, Some(49),
      Some([ Review("Sneha Reddy", 5, ClinicReview1, Stamp("2024-01-12", 1705017600000)) ]),
      Stamp("2024-01-14", 1705190400000))
  }

  function SeedTutoring(): Business
  {
    Business(3, "Brilliant Minds Tutoring", "Vikram Singh", "Education", "Bangalore",
      Some(TutoringAddress), "+91 98765 43212",
      Some(TutoringAbout),
      true, Some(47), None, Stamp("2024-01-13", 1705104000000))
  }

  function SeedRenovation(): Business
  {
    Business(4, "Home Renovation Experts", "Suresh Iyer", "Home Repair", "Chennai",
      Some(RenovationAddress), "+91 98765 43213",
      Some(RenovationAbout),
      false, Some(45), None, Stamp("2024-01-12", 1705017600000))
  }

  function SeedAutoCare(): Business
  {
    Business(5, "City Auto Care", "Anil Kapoor", "Auto Services", "Pune",
      Some(AutoCareAddress), "+91 98765 43214",
      Some(AutoCareAbout),
      false, Some(46), None, Stamp("2024-01-11", 1704931200000))
  }

  /** The stored collection is trusted only when its text is present and
      non-empty, the version tag matches, and it parses to a non-empty array. */
  predicate TrustsStored(store: Storage, parse: string -> Parsed)
  {
    && BusinessesKey in store && store[BusinessesKey] != ""
    && VersionKey in store && store[VersionKey] == DataVersion
    && parse(store[BusinessesKey]).ParsedArray?
    && |parse(store[BusinessesKey]).items| > 0
  }

  datatype Loaded = Loaded(businesses: seq<Business>, store: Storage)

  /** The store's initial state: the persisted collection when it is trusted,
      otherwise the seed, with the current version tag written. */
  function Load(store: Storage, parse: string -> Parsed): (r: Loaded)
    ensures |r.businesses| > 0
    ensures VersionKey in r.store && r.store[VersionKey] == DataVersion
    ensures TrustsStored(store, parse) ==> r == Loaded(parse(store[BusinessesKey]).items, store)
    ensures !TrustsStored(store, parse) ==> r.businesses == Seed()
    ensures !TrustsStored(store, parse) ==> r.store == store[VersionKey := DataVersion]
  {
    if BusinessesKey in store && store[BusinessesKey] != ""
       && VersionKey in store && store[VersionKey] == DataVersion
    then
      var parsed := parse(store[BusinessesKey]);
      if parsed.ParsedArray? && |parsed.items| > 0 then Loaded(parsed.items, store)
      else Loaded(Seed(), store[VersionKey := DataVersion])
    else Loaded(Seed(), store[VersionKey := DataVersion])
  }

  /** Writing the whole collection back after every change. */
  function Persist(store: Storage, bs: seq<Business>, serialize: seq<Business> -> string): (r: Storage)
    ensures BusinessesKey in r && r[BusinessesKey] == serialize(bs)
    ensures forall k :: k in store && k != BusinessesKey ==> k in r && r[k] == store[k]
  {
    store[BusinessesKey := serialize(bs)]
  }

  /** Persisting a non-empty collection under the current version and loading
      it again gives it back, provided the codec round-trips it. */
  lemma PersistThenLoad(store: Storage, bs: seq<Business>,
                        serialize: seq<Business> -> string, parse: string -> Parsed)
    requires |bs| > 0
    requires VersionKey in store && store[VersionKey] == DataVersion
    requires serialize(bs) != "" && parse(serialize(bs)) == ParsedArray(bs)
    ensures Load(Persist(store, bs, serialize), parse).businesses == bs
  {
    assert TrustsStored(Persist(store, bs, serialize), parse);
  }

  /** A restart straight after loading (with the collection persisted) comes
      back to the same collection. */
  lemma LoadIsStable(store: Storage, serialize: seq<Business> -> string, parse: string -> Parsed)
    requires var bs := Load(store, parse).businesses;
             serialize(bs) != "" && parse(serialize(bs)) == ParsedArray(bs)
    ensures var first := Load(store, parse);
            Load(Persist(first.store, first.businesses, serialize), parse).businesses == first.businesses
  {
    var first := Load(store, parse);
    PersistThenLoad(first.store, first.businesses, serialize, parse);
  }

  // ---------------------------------------------------------------------------
  // Facts about the seed

  /** A collection numbered 1, 2, ..., n has distinct ids and next id n + 1. */
  lemma NumberedFromOne(bs: seq<Business>)
    requires forall i :: 0 <= i < |bs| ==> bs[i].id == i + 1
    ensures UniqueIds(bs)
    ensures NextId(bs) == |bs| + 1
  {
    var id := NextId(bs);
    if |bs| > 0 {
      assert bs[|bs| - 1].id < id;
      assert id != 1;
      var i :| 0 <= i < |bs| && bs[i].id == id - 1;
    }
  }

  /** The seed has five records with distinct ids, so the next id is 6. */
  lemma SeedFacts()
    ensures |Seed()| == 5
    ensures UniqueIds(Seed())
    ensures NextId(Seed()) == 6
  {
    NumberedFromOne(Seed());
  }

  /** The seed's first record is rated 4.8 while its two reviews average 4.5,
      so "rating = rounded mean" is not an invariant of every collection. */
  lemma SeedRatingIsNotMean()
    ensures Seed()[0].ratingTenths == Some(48)
    ensures MeanTenths(ReviewsOf(Seed()[0])) == 45
  {
    var rs := ReviewsOf(SeedPlumbing());
    assert rs[..1][..0] == [];
    assert SumRatings(rs[..1]) == 5;
    assert SumRatings(rs) == 9;
  }

  /** Creating listing "X" on the seed gives six records, "X" first, with id 6. */
  lemma SeedAddScenario(l: NewListing, now: Stamp)
    requires l.name == "X"
    ensures var r := AddBusiness(Seed(), l, now);
            && |r| == 6 && r[0].name == "X" && r[0].id == 6
            && !r[0].verified && r[1..] == Seed()
  {
    SeedFacts();
  }
}

=== FILE: query_string.dfy ===
/** URL query parameters (`URLSearchParams`) as an ordered list of key/value
    pairs, and the query string they serialise to. Percent-encoding is not
    modelled: a value is written as it is. */
module QueryString {
  import opened Basics

  datatype Param = Param(key: string, value: string)

  /** No pair before position `i` has the key. */
  predicate IsFirstKey(ps: seq<Param>, key: string, i: int)
  {
    forall j :: 0 <= j < i && j < |ps| ==> ps[j].key != key
  }

  /** `params.get(key)`: the value of the first pair with that key. */
  function Get(ps: seq<Param>, key: string): (r: Option<string>)
    ensures r.None? <==> forall i :: 0 <= i < |ps| ==> ps[i].key != key
    ensures r.Some? ==> exists i :: 0 <= i < |ps| && ps[i] == Param(key, r.value) && IsFirstKey(ps, key, i)
  {
    if ps == [] then None
    else if ps[0].key == key then Some(ps[0].value)
    else Get(ps[1..], key)
  }

  /** Appending a pair leaves the lookups of other keys alone, and makes a new
      key readable. */
  lemma {:induction false} GetAppend(ps: seq<Param>, p: Param, key: string)
    ensures key != p.key ==> Get(ps + [p], key) == Get(ps, key)
    ensures key == p.key && Get(ps, key).None? ==> Get(ps + [p], key) == Some(p.value)
    decreases |ps|
  {
    if ps != [] {
      assert (ps + [p])[1..] == ps[1..] + [p];
      GetAppend(ps[1..], p, key);
    }
  }

  /** `if (value) params.set(key, value)`: an empty value adds nothing. */
  function SetIfNonEmpty(ps: seq<Param>, key: string, value: string): (r: seq<Param>)
    ensures value == "" ==> r == ps
    ensures value != "" ==> |r| == |ps| + 1 && r[..|ps|] == ps && r[|ps|..] == [Param(key, value)]
    ensures forall k :: k != key ==> Get(r, k) == Get(ps, k)
    ensures value != "" && Get(ps, key).None? ==> Get(r, key) == Some(value)
  {
    if value != "" then
      var r := ps + [Param(key, value)];
      assert r[..|ps|] == ps;
      forall k | true ensures k != key ==> Get(r, k) == Get(ps, k) {
        GetAppend(ps, Param(key, value), k);
      }
      GetAppend(ps, Param(key, value), key);
      r
    else ps
  }

  /** `params.toString()`: `key=value` pairs joined by `&`. */
  function Serialize(ps: seq<Param>): (s: string)
    ensures ps == [] <==> s == ""
  {
    if ps == [] then ""
    else if |ps| == 1 then ps[0].key + "=" + ps[0].value
    else ps[0].key + "=" + ps[0].value + "&" + Serialize(ps[1..])
  }
}

=== FILE: search_page.dfy ===
/** The search page: the three filters applied to the collection, the query
    parameters written back to the URL, and the filters read from it. */
module SearchPage {
  import opened Basics
  import opened Text
  import opened Listing
  import opened QueryString

  /** The category choice that means "no category filter". */
  const AllCategories: string := "All"

  /** Free-text query: a case-blind substring of the name, the category, or a
      present, non-empty description. */
  predicate QueryMatches(b: Business, q: string)
    ensures q == "" ==> QueryMatches(b, q)
    ensures QueryMatches(b, q) ==>
              |q| <= |b.name| || |q| <= |b.category| || (b.description.Some? && |q| <= |b.description.value|)
  {
    || ContainsIgnoringCase(b.name, q)
    || ContainsIgnoringCase(b.category, q)
    || (b.description.Some? && b.description.value != ""
        && ContainsIgnoringCase(b.description.value, q))
  }

  /** City: a case-blind substring of the city. */
  predicate CityMatches(b: Business, city: string)
    ensures city == "" ==> CityMatches(b, city)
    ensures CityMatches(b, city) ==> |city| <= |b.city|
  {
    ContainsIgnoringCase(b.city, city)
  }

  /** The category filter applies unless the choice is empty or "All". */
  predicate CategoryFilterOn(category: string)
    ensures CategoryFilterOn(category) <==> category !in [[], AllCategories]
  {
    category != "" && category != AllCategories
  }

  /** A record passes the search: each filter that is on accepts it. An empty
      query or city would accept every record anyway, so only the category
      needs its "off" case. */
  predicate Matches(b: Business, q: string, city: string, category: string)
    ensures Matches(b, q, city, category) <==>
              QueryMatches(b, q) && CityMatches(b, city) && (!CategoryFilterOn(category) || b.category == category)
  {
    && (q == "" || QueryMatches(b, q))
    && (city == "" || CityMatches(b, city))
    && (!CategoryFilterOn(category) || b.category == category)
  }

  function QueryTest(q: string): Business -> bool { b => QueryMatches(b, q) }
  function CityTest(city: string): Business -> bool { b => CityMatches(b, city) }
  function CategoryTest(category: string): Business -> bool { (b: Business) => b.category == category }
  function MatchTest(q: string, city: string, category: string): Business -> bool
  {
    b => Matches(b, q, city, category)
  }

  /** One stage of the results: the records passing `p` when the filter is
      on, all records when it is off. */
  function Stage(xs: seq<Business>, on: bool, p: Business -> bool): (r: seq<Business>)
    ensures IsSubseq(r, xs)
    ensures forall b :: b in r ==> b in xs && (on ==> p(b))
    ensures forall b :: b in xs && (on ==> p(b)) ==> b in r
  {
    if on then Filter(xs, p) else SubseqRefl(xs); xs
  }

  /** The results list, filtered in three stages as the page does: the query
      filter, then the city filter, then the category filter, each applied
      only when it is on. The result keeps collection order and holds exactly
      the records that pass every filter that is on. */
  function Results(bs: seq<Business>, q: string, city: string, category: string): (r: seq<Business>)
    ensures IsSubseq(r, bs)
    ensures forall b :: b in r <==> b in bs && Matches(b, q, city, category)
  {
    var afterQuery := Stage(bs, q != "", QueryTest(q));
    var afterCity := Stage(afterQuery, city != "", CityTest(city));
    var result := Stage(afterCity, CategoryFilterOn(category), CategoryTest(category));
    SubseqTrans(afterCity, afterQuery, bs);
    SubseqTrans(result, afterCity, bs);
    result
  }

  /** The staged filter is one filter by the conjunction of the three tests. */
  lemma ResultsIsOneFilter(bs: seq<Business>, q: string, city: string, category: string)
    ensures Results(bs, q, city, category) == Filter(bs, MatchTest(q, city, category))
  {
    var stageQ := (b: Business) => q == "" || QueryMatches(b, q);
    var stageQC := (b: Business) => stageQ(b) && (city == "" || CityMatches(b, city));
    var afterQuery := Stage(bs, q != "", QueryTest(q));
    if q != "" {
      FilterCongruent(bs, QueryTest(q), stageQ);
    } else {
      FilterKeepsAll(bs, stageQ);
    }
    assert afterQuery == Filter(bs, stageQ);
    var afterCity := Stage(afterQuery, city != "", CityTest(city));
    if city != "" {
      FilterFuse(bs, stageQ, CityTest(city), stageQC);
    } else {
      FilterCongruent(bs, stageQ, stageQC);
    }
    assert afterCity == Filter(bs, stageQC);
    if CategoryFilterOn(category) {
      FilterFuse(bs, stageQC, CategoryTest(category), MatchTest(q, city, category));
    } else {
      FilterCongruent(bs, stageQC, MatchTest(q, city, category));
    }
  }

  /** With no query, no city and no category (or "All"), every record is listed in order. */
  lemma NoFiltersListsAll(bs: seq<Business>, category: string)
    requires category == "" || category == AllCategories
    ensures Results(bs, "", "", category) == bs
  {
  }

  /** Choosing "All" is the same as choosing no category. */
  lemma AllIsNoCategory(bs: seq<Business>, q: string, city: string)
    ensures Results(bs, q, city, AllCategories) == Results(bs, q, city, "")
  {
  }

  /** Turning a filter on narrows the results to a subsequence of what they were. */
  lemma AddingFilterNarrows(bs: seq<Business>, q: string, city: string, category: string)
    ensures IsSubseq(Results(bs, q, city, category), Results(bs, "", city, category))
    ensures IsSubseq(Results(bs, q, city, category), Results(bs, q, "", category))
    ensures IsSubseq(Results(bs, q, city, category), Results(bs, q, city, AllCategories))
  {
    ResultsIsOneFilter(bs, q, city, category);
    ResultsIsOneFilter(bs, "", city, category);
    ResultsIsOneFilter(bs, q, "", category);
    ResultsIsOneFilter(bs, q, city, AllCategories);
    FilterMonotone(bs, MatchTest(q, city, category), MatchTest("", city, category));
    FilterMonotone(bs, MatchTest(q, city, category), MatchTest(q, "", category));
    FilterMonotone(bs, MatchTest(q, city, category), MatchTest(q, city, AllCategories));
  }

  /** One record passes the search for lower-cased query and city exactly when
      it passes for the given ones. */
  lemma MatchesCaseBlind(b: Business, q: string, city: string, category: string)
    ensures Matches(b, Lower(q), Lower(city), category) == Matches(b, q, city, category)
  {
    LowerIdempotent(q);
    LowerIdempotent(city);
  }

  /** Query and city are case-blind: lower-casing them changes nothing. */
  lemma QueryAndCityCaseBlind(bs: seq<Business>, q: string, city: string, category: string)
    ensures Results(bs, Lower(q), Lower(city), category) == Results(bs, q, city, category)
  {
    ResultsIsOneFilter(bs, q, city, category);
    ResultsIsOneFilter(bs, Lower(q), Lower(city), category);
    var lowered, given := MatchTest(Lower(q), Lower(city), category), MatchTest(q, city, category);
    forall b | b in bs
      ensures lowered(b) == given(b)
    {
      MatchesCaseBlind(b, q, city, category);
    }
    FilterCongruent(bs, lowered, given);
  }

  /** The category is compared exactly, the query case-blindly: a category
      choice that differs from a record's category only in letter case does
      not select it, although the same text typed as the query finds it. */
  lemma CategoryIsCaseSensitive(b: Business, category: string)
    requires CategoryFilterOn(category)
    requires category != b.category && Lower(category) == Lower(b.category)
    ensures !Matches(b, "", "", category)
    ensures Matches(b, category, "", "")
  {
    ContainsSelf(Lower(b.category));
  }

  /** Without a description, the query can only match the name or the category. */
  lemma NoDescriptionQuery(b: Business, q: string)
    requires b.description.None?
    ensures QueryMatches(b, q) <==> ContainsIgnoringCase(b.name, q) || ContainsIgnoringCase(b.category, q)
  {
  }

  // ---------------------------------------------------------------------------
  // The URL

  /** `handleSearch`: `q`, `city` and `category` are written when they are on. */
  function SearchParams(q: string, city: string, category: string): (ps: seq<Param>)
    ensures Get(ps, "q") == (if q != "" then Some(q) else None)
    ensures Get(ps, "city") == (if city != "" then Some(city) else None)
    ensures Get(ps, "category") == (if CategoryFilterOn(category) then Some(category) else None)
  {
    var withQ := SetIfNonEmpty([], "q", q);
    var withCity := SetIfNonEmpty(withQ, "city", city);
    var ps := if CategoryFilterOn(category) then withCity + [Param("category", category)] else withCity;
    GetAppend([], Param("q", q), "city");
    GetAppend([], Param("q", q), "category");
    GetAppend(withQ, Param("city", city), "q");
    GetAppend(withQ, Param("city", city), "city");
    GetAppend(withQ, Param("city", city), "category");
    GetAppend(withCity, Param("category", category), "q");
    GetAppend(withCity, Param("category", category), "city");
    GetAppend(withCity, Param("category", category), "category");
    ps
  }

  datatype Filters = Filters(q: string, city: string, category: string)

  /** The page's initial filters, read from the URL: `get(k) || default`. */
  function FiltersFromUrl(ps: seq<Param>): (r: Filters)
    ensures Get(ps, "q").None? ==> r.q == ""
    ensures Get(ps, "q").Some? ==> r.q == Get(ps, "q").value
    ensures Get(ps, "city").None? ==> r.city == ""
    ensures Get(ps, "city").Some? ==> r.city == Get(ps, "city").value
    ensures r.category != ""
    ensures Get(ps, "category").Some? && Get(ps, "category").value != "" ==> r.category == Get(ps, "category").value
  {
    var q := Get(ps, "q");
    var city := Get(ps, "city");
    var category := Get(ps, "category");
    Filters(
      if q.Some? && q.value != "" then q.value else "",
      if city.Some? && city.value != "" then city.value else "",
      if category.Some? && category.value != "" then category.value else AllCategories)
  }

  /** Reloading the page from the URL it wrote reproduces the same results. */
  lemma UrlRoundTrip(bs: seq<Business>, q: string, city: string, category: string)
    ensures var f := FiltersFromUrl(SearchParams(q, city, category));
            Results(bs, f.q, f.city, f.category) == Results(bs, q, city, category)
  {
    var f := FiltersFromUrl(SearchParams(q, city, category));
    assert f.q == q && f.city == city;
    ResultsIsOneFilter(bs, q, city, category);
    ResultsIsOneFilter(bs, f.q, f.city, f.category);
    FilterCongruent(bs, MatchTest(f.q, f.city, f.category), MatchTest(q, city, category));
  }
}

=== FILE: text.dfy ===
/** Strings as the pages compare them: ASCII case folding (`toLowerCase`)
    and substring search (`includes`). */
module Text {

  predicate IsUpper(c: char) { 'A' <= c <= 'Z' }

  /** `toLowerCase` on one character, restricted to ASCII letters. */
  function LowerChar(c: char): char
  {
    if IsUpper(c) then (c as int + 32) as char else c
  }

  /** `toLowerCase` on a string, restricted to ASCII letters. */
  function Lower(s: string): (r: string)
    ensures |r| == |s|
    ensures forall i :: 0 <= i < |s| ==> r[i] == LowerChar(s[i])
    ensures forall i :: 0 <= i < |r| ==> !IsUpper(r[i])
  {
    if s == [] then [] else [LowerChar(s[0])] + Lower(s[1..])
  }

  /** Lower-casing twice is lower-casing once. */
  lemma LowerIdempotent(s: string)
    ensures Lower(Lower(s)) == Lower(s)
  {
  }

  /** A string without upper-case letters is its own lower case. */
  lemma LowerOfLower(s: string)
    requires forall i :: 0 <= i < |s| ==> !IsUpper(s[i])
    ensures Lower(s) == s
  {
  }

  predicate StartsWith(s: string, prefix: string)
  {
    |prefix| <= |s| && s[..|prefix|] == prefix
  }

  /** `hay.includes(needle)`: `needle` occurs in `hay` at some offset. */
  predicate Contains(hay: string, needle: string)
    ensures needle == [] ==> Contains(hay, needle)
    ensures Contains(hay, needle) ==> |needle| <= |hay|
    decreases |hay|
  {
    StartsWith(hay, needle) || (hay != [] && Contains(hay[1..], needle))
  }

  /** `needle` occurs in `hay` starting at offset `k`. */
  predicate OccursAt(hay: string, needle: string, k: int)
  {
    0 <= k && k + |needle| <= |hay| && hay[k..k + |needle|] == needle
  }

  /** `Contains` holds exactly when `needle` occurs at some offset of `hay`. */
  lemma {:induction false} ContainsIffOccurs(hay: string, needle: string)
    ensures Contains(hay, needle) <==> exists k :: OccursAt(hay, needle, k)
    decreases |hay|
  {
    if StartsWith(hay, needle) {
      assert OccursAt(hay, needle, 0);
    }
    if hay != [] {
      ContainsIffOccurs(hay[1..], needle);
      if Contains(hay[1..], needle) {
        var k :| OccursAt(hay[1..], needle, k);
        assert hay[k + 1..k + 1 + |needle|] == hay[1..][k..k + |needle|];
        assert OccursAt(hay, needle, k + 1);
      }
      if exists k :: OccursAt(hay, needle, k) {
        var k :| OccursAt(hay, needle, k);
        if k > 0 {
          assert hay[1..][k - 1..k - 1 + |needle|] == hay[k..k + |needle|];
          assert OccursAt(hay[1..], needle, k - 1);
        }
      }
    } else if exists k :: OccursAt(hay, needle, k) {
      var k :| OccursAt(hay, needle, k);
      assert needle == [];
    }
  }

  /** Every string contains itself and the empty string. */
  lemma ContainsSelf(s: string)
    ensures Contains(s, s)
    ensures Contains(s, "")
  {
  }

  /** `hay.toLowerCase().includes(needle.toLowerCase())`. As with `includes`,
      the empty needle is found everywhere and a needle longer than the text
      is found nowhere. */
  predicate ContainsIgnoringCase(hay: string, needle: string)
    ensures needle == "" ==> ContainsIgnoringCase(hay, needle)
    ensures ContainsIgnoringCase(hay, needle) ==> |needle| <= |hay|
  {
    Contains(Lower(hay), Lower(needle))
  }

  /** The case of either argument does not matter. */
  lemma IgnoringCaseIsCaseBlind(hay: string, needle: string)
    ensures ContainsIgnoringCase(hay, needle) == ContainsIgnoringCase(Lower(hay), Lower(needle))
  {
    LowerIdempotent(hay);
    LowerIdempotent(needle);
  }
}
